=== FILE: README.md ===
# flip-cards quiz engine in Dafny

A model of the engine behind the flip-cards ("overhoring") app: the engine
that chooses the questions of a practice session and adapts the queue as the
user answers. The app shows bird questions one at a time. The user types the
answer and presses "Check". A wrong answer in finite mode brings the question
back a few places later. "Volgende" moves on to the next question. A progress
bar reports how many questions are done and what share was answered correctly.

The model is written in pure functions over immutable records. The Streamlit
`session_state` dictionary becomes the record `Session.State`, and each
callback becomes a function from state to state. Random choices are
parameters:
- the positions `random.sample` picks;
- the two permutations `random.shuffle` applies;
- the re-insertion offset of `random.randint(3, 8)`.

The stops (`st.stop()`) of `initialize_queue` and of the start form become
`Err` values of `Cards.Result`. So do the exceptions the modelled functions
can raise: the division by zero, the negative sample size and the pop of an
empty queue.

Modules, in dependency order:

- `Seqs` holds sequence vocabulary. It models Python's `list * k`,
  `list.insert`, `list[a:b]` (with negative and clamped bounds), gathering by
  positions, and index permutations.
- `Cards` holds the corpus (two parallel lists), the configuration record with
  the class defaults, and the error and result types.
- `Filter` holds the three filter passes and their intersection. It proves
  that the result is exactly the ascending list of eligible indices.
- `Queue` holds `initialize_queue`: the stops, the range slice or the random
  sample, the infinite-practice expansion, and the final shuffle.
- `Answers` holds case-insensitive answer comparison.
- `Suggestions` holds `define_answer_suggestions` and Python's string order.
- `Session` holds the session state and its operations: start, present, check
  (with the counter rules and the re-insertion), and advance. It also holds one
  rendered turn of the app, and the invariant kept over any run of turns.
- `Progress` holds `show_progress` and the nine feedback tiers, in integer
  arithmetic.
- `Scenario` holds concrete sessions worked out turn by turn.

## Model

| member | source | states |
|---|---|---|
| Filter.FromSelectedQuestions | src/flip_cards/app_utils.py:418-428 | The list is ascending, lies below the corpus size, and holds index i exactly when no questions are selected or answer i is among the selected questions. |
| Filter.IncludedHits | src/flip_cards/app_utils.py:435-437 | Every entry the tag loop appends is the question's index. It appends something exactly when some tag of the question is included. |
| Filter.IncludedHitsCount | src/flip_cards/app_utils.py:435-437 | The tag loop appends the index once per tag position that holds an included tag, so a tag listed twice is counted twice. |
| Filter.FromIncludedTags | src/flip_cards/app_utils.py:431-440 | The list is nondecreasing but may repeat an index. It holds i exactly when no tags are included or question i carries an included tag. |
| Filter.PopOnFirstMatch | src/flip_cards/app_utils.py:447-451 | Append-then-pop removes the index just appended exactly when some tag is excluded, and otherwise leaves the list as it is. |
| Filter.FromExcludedTags | src/flip_cards/app_utils.py:443-454 | The list is strictly ascending, so it has no duplicates. It holds i exactly when no tags are excluded or question i carries none of them. |
| Filter.SortedIndices | src/flip_cards/app_utils.py:460-462 | `sorted(list(s))` of a set of indices is strictly ascending and has exactly the members of the set. |
| Filter.FromSelectedTags | src/flip_cards/app_utils.py:457-462 | The intersection of the two tag passes is strictly ascending. It holds i exactly when i passes both tag tests. |
| Filter.PossibleQuestionIndices | src/flip_cards/app_utils.py:465-471 | The eligible list is strictly ascending and lies in [0, n). It holds i exactly when i passes all three tests, and the excluded-tags test applies even when questions are selected. |
| Filter.SameFiltersSameEligible | src/flip_cards/app_utils.py:465-471 | The eligible list depends only on the three filter lists, not on the range, the sample size or the flags. |
| Filter.PossibleIsSingleWalk | src/flip_cards/app_utils.py:418-471 | The three passes, the intersections and the sort equal one walk over the corpus that keeps the eligible indices. |
| Filter.NoFilterAdmitsAll | src/flip_cards/app_utils.py:418-471 | Under the default configuration every index is eligible, in corpus order. |
| Filter.ExcludedTagsApplyToSelectedQuestions | src/flip_cards/app_utils.py:465-471 | In a concrete corpus, a selected question that carries an excluded tag is dropped. It is kept once the exclusion is removed. |
| Seqs.PySlice | src/flip_cards/app_utils.py:494 | A slice with in-range bounds is exactly the Dafny subsequence. Any slice is at most as long as the list and holds only its elements. |
| Seqs.Insert | src/flip_cards/app_utils.py:638 | `insert(p, x)` puts x at p, keeps the elements before p, shifts the rest by one, and adds exactly one x to the multiset. |
| Seqs.Repeat | src/flip_cards/app_utils.py:503 | `list * k` has length len·k and holds only elements of the list. |
| Seqs.PermuteMultiset | src/flip_cards/app_utils.py:509-510 | Applying an index permutation keeps the length and the multiset of the list. |
| Seqs.DistinctCardinality | src/flip_cards/app_utils.py:560-563 | A list without repeats has as many distinct elements as entries. `len(set(question_indices))` relies on this. |
| Queue.Select | src/flip_cards/app_utils.py:481-500 | It stops when nothing is eligible, when the end index passes the list in range mode, or when n exceeds the list or is negative in random mode. Otherwise range mode returns `eligible[start:end]`, and random mode returns n distinct eligible indices. |
| Queue.SmallSelectionFillsCap | src/flip_cards/app_utils.py:503-505 | A selection of at most 10000 questions, repeated `int(110000/L)` times, exceeds the 100000 cap. |
| Queue.Expand | src/flip_cards/app_utils.py:502-505 | An empty selection divides by zero. Otherwise the expansion has min(100000, L·int(110000/L)) entries, all from the selection. |
| Queue.InitializeQueue | src/flip_cards/app_utils.py:474-511 | The queue is a permutation (same multiset) of the stored `question_indices`. Both hold only eligible indices, and at most 100000 of them in infinite practice. |
| Queue.InitializeQueueFailures | src/flip_cards/app_utils.py:481-503 | Each stop yields its error, in the order `initialize_queue` checks them. So does the division by zero of an empty selection in infinite practice. |
| Queue.InitializeQueueSucceeds | src/flip_cards/app_utils.py:481-503 | When none of those conditions holds, and the range bounds are non-negative (the only ones the form's slider produces), a queue is built. |
| Queue.RangeSelectsSlice | src/flip_cards/app_utils.py:485-494 | Finite range mode stores exactly `eligible[start:end]`. |
| Queue.RandomSelectsDistinct | src/flip_cards/app_utils.py:495-500 | Finite random mode stores n distinct eligible indices. |
| Queue.InfiniteLength | src/flip_cards/app_utils.py:502-507 | Infinite practice stores min(100000, L·int(110000/L)) entries, all from the selection of size L. |
| Answers.MatchesIsCaseInsensitiveEquality | src/flip_cards/app_utils.py:614-616 | `Answers.Matches` models the comparison in `check_answer`. An answer matches exactly when it has the same length and agrees position by position up to letter case. |
| Answers.MatchesIsEquivalence | src/flip_cards/app_utils.py:614-616 | Matching is reflexive, symmetric and transitive. |
| Suggestions.StrLessTotal | src/flip_cards/app_utils.py:517-518 | Python's string order on distinct strings is total, and `sorted` relies on this. |
| Suggestions.SortedDistinct | src/flip_cards/app_utils.py:517-518 | `sorted(set(xs))` is strictly ascending and has exactly the strings of xs. |
| Suggestions.DefineAnswerSuggestions | src/flip_cards/app_utils.py:514-519 | The suggestions are strictly sorted and distinct. They are exactly the correct answers of the stored selection. |
| Session.ResetSessionState | src/flip_cards/app_utils.py:408-415 | Counters are zero and the per-question flags are cleared. The progress denominator becomes `_get_n_questions_selected()` of the configuration. The seen collection is empty, a list in infinite practice and a set otherwise. Every other field is unchanged. |
| Session.DenominatorIsSelectionSize | src/flip_cards/app_utils.py:399-405 | `Session.NQuestionsSelected` models `_get_n_questions_selected`: n in random mode, end − start in range mode. That count is exactly the number of questions `initialize_queue` stores and queues. This holds in finite mode with a sample or a range with 0 ≤ start ≤ end. |
| Session.StartConfig | src/flip_cards/app_utils.py:356-394 | No eligible question stops the form. Exactly one eligible question, or a selection of one, becomes exactly the draft switched to a random sample of one. Any other start keeps the draft unchanged. Only the two sampling fields can ever change. |
| Session.OneEligibleGivesOneQuestion | src/flip_cards/app_utils.py:356-394 | When the filters leave exactly one question, a finite session started through the override has that one question as its whole queue and a denominator of one. |
| Session.SingleRangeBecomesRandom | src/flip_cards/app_utils.py:379-394 | A range of width one is also turned into a random sample of one. |
| Session.StartSession | src/flip_cards/app.py:27-31 | It fails exactly when `initialize_queue` stops. Otherwise the stored selection and the queue are those `initialize_queue` builds from the eligible list, so the selection holds only eligible questions. The suggestions are those of that selection, the denominator is `_get_n_questions_selected()`, and the counters are zero. The session invariant holds, and the queue is a permutation of the selection. In random mode, or in range mode with 0 ≤ start ≤ end, the selection has no repeats and its length is the denominator. |
| Session.Present | src/flip_cards/app_utils.py:522-526 | The front of the queue becomes the current question with its answer, and nothing else changes. An empty queue has no front. |
| Session.CheckAnswer | src/flip_cards/app_utils.py:613-630 | The answer is correct exactly when it matches case-insensitively. `n_correct` grows by one exactly when the answer is correct and either the mode is infinite or the index is unseen. The index is added to the seen collection, and the count grows by one except for a repeat in finite mode. `n_correct ≤ seen` is preserved. |
| Session.UpdateQueue | src/flip_cards/app_utils.py:633-638 | After a correct answer or in infinite practice the queue is unchanged. Otherwise the current index is inserted at min(r, len), so the length grows by one. The front and the prefix are kept, and nothing else changes. |
| Session.OnCheck | src/flip_cards/app_utils.py:585-592 | An empty answer only records the empty answer. An already checked answer only records the typed answer and marks submission. A first check grades the answer, keeps the front, records the index as seen, and grows the queue by one exactly after a miss in finite mode. |
| Session.RepeatedCheckIsIdle | src/flip_cards/app_utils.py:585-592 | Checking the same answer again before advancing changes nothing, whatever offset is drawn. |
| Session.OnNext | src/flip_cards/app_utils.py:594-599 | "Volgende" removes exactly the front element, clears the submitted and checked flags and sets the clear-answer flag. Nothing else changes, and an empty queue raises. |
| Session.NextQuestion | src/flip_cards/app_utils.py:664-669 | It removes exactly the front element, clears `next_question` and the checked flag, and sets the clear-answer flag. Nothing else changes. |
| Session.NextQuestionPreservesWf | src/flip_cards/app_utils.py:664-669 | `next_question` keeps the session invariant exactly when no answer is submitted or more than one entry is queued. It does not clear `answer_submitted`, so popping the last entry of a submitted queue breaks the invariant. |
| Session.MissedQuestionReturns | src/flip_cards/app_utils.py:633-638 | After a miss in finite mode and the next advance, the missed question is at position min(r, len) − 1. The queue is the old tail with that one entry inserted. |
| Session.PresentPreservesWf | src/flip_cards/app_utils.py:522-526 | Presenting keeps the session invariant. |
| Session.OnCheckPreservesWf | src/flip_cards/app_utils.py:585-592 | Checking keeps the session invariant (queue ⊆ selection, seen ⊆ selection, `n_correct` ≤ seen), the selection, the denominator and the configuration. |
| Session.OnNextPreservesWf | src/flip_cards/app_utils.py:594-599 | Advancing keeps the session invariant. |
| Session.Render | src/flip_cards/app.py:35-41 | A rerun shows the front of the queue, or nothing once the queue is empty. A rerun that gets past the empty-queue stop also clears a pending clear-answer request (`app.py:40-41` calling `clear_answer_field`). The empty-queue rerun leaves the state unchanged. |
| Session.Turn | src/flip_cards/app_utils.py:601-610 | One press of the button the form shows keeps the invariant, the selection, the denominator and the configuration, and raises `n_correct` by at most one. From a non-empty queue, the clear-answer request is left pending exactly when the press empties the queue. |
| Session.RunPreservesInvariant | src/flip_cards/app_utils.py:585-638 | Over any sequence of turns the invariant holds. `n_correct` never exceeds the seen count, and the stored selection, the denominator and the finite-mode uniqueness never change. |
| Progress.TierThresholds | src/flip_cards/app_utils.py:529-547 | `Progress.FeedbackTier` models `_get_feedback_emoji`. For an accuracy in [0, 1], the top tier is given exactly at accuracy 1. A tier at least as good as the k-th is given exactly when the accuracy reaches the k-th threshold (0.9, 0.8, 0.7, 0.6, 0.5, 0.4, 0.2). |
| Progress.TierMonotone | src/flip_cards/app_utils.py:529-547 | A higher accuracy never gets a worse tier. |
| Progress.ShowProgress | src/flip_cards/app_utils.py:550-573 | It raises exactly when the denominator is zero, which happens only in finite mode with `n_questions` 0. The denominator is `n_questions` in finite mode and 100000 in infinite practice. Done is the denominator minus what is left: the queue length, less one while an answer is submitted, in infinite practice; the unseen distinct questions of the selection in finite mode. The report carries `n_correct` and the seen count. With nothing seen there is no emoji and the accuracy is 0/1. Otherwise the accuracy is `n_correct`/`n_seen` and the emoji is its tier. |
| Progress.FiniteProgressBounds | src/flip_cards/app_utils.py:555-565 | In finite mode, when the selection is distinct and its length is the denominator (`Session.Tracking`), done equals the number of distinct questions seen. So 0 ≤ done ≤ start, the accuracy is at most 1, and only an empty selection raises. |
| Progress.InfiniteProgressBounds | src/flip_cards/app_utils.py:555-565 | In infinite practice the denominator is 100000, 0 ≤ done ≤ 100000, and the accuracy is at most 1. |
| Progress.ProgressDenominatorStable | src/flip_cards/app_utils.py:555 | No sequence of turns changes the progress denominator, or whether it is zero. |
| Progress.ReinsertionKeepsProgress | src/flip_cards/app_utils.py:556-563 | Re-inserting a missed question leaves the whole progress report unchanged. |
| Scenario.OpeningIsStart | src/flip_cards/app.py:27-38 | Starting the range [0, 2) of a two-bird corpus with the queue left in order, then rendering, gives the opening screen. That screen shows Merel and suggests Merel and Roodborst. |
| Scenario.RetryDoesNotCount | src/flip_cards/app_utils.py:585-638 | Miss Merel, then answer Roodborst and Merel in other letter cases. Merel returns after Roodborst, and only first attempts count. The session ends with an empty queue, one correct answer, and seen {0, 1}. |
| Scenario.FinishedReport | src/flip_cards/app_utils.py:550-573 | That session ends with 2 of 2 done, accuracy 1/2 and the 0.5 tier. |
| Scenario.IncludedTagsRepeatAnIndex | src/flip_cards/app_utils.py:431-440 | A question carrying an included tag twice is appended twice by the included-tags pass. The eligible list still holds it once. |

## Left out

- Streamlit rendering and widgets are not modelled. This covers `config_form`'s sliders, checkboxes and multiselects and the draft/active configuration synchronisation. It also covers `present_question`, `show_feedback_message`, `show_tags`, `stop_overhoring` and `welcome_message`. Only the start-button override and the sample-size arithmetic of `config_form` are modelled (`Session.StartConfig`).
- The focus handling is left out. `_toggle_input_focus` only writes the `focus_on_input` and `focus_on_next_button` session flags. These flags feed only `focus_on_input_in_form` and `focus_on_next_button_in_form`, which inject JavaScript into the page. No engine state depends on them.
- Of `clear_answer_field`, the model keeps the reset of the `clearAnswerField` flag (in `Session.Render`). It leaves out the emptying of the `answer_field` text widget, because each `Click` carries the typed answer as a parameter.
- `you_shall_not_password` is left out: it reads the environment, sleeps and renders a form.
- `load_data` and `prepare_question_answer_pairs` are left out. The corpus is an input, with the equal-length requirement of src/flip_cards/app_utils.py:111 as `Corpus.Valid`.
- `initialize_session_state` is left out. Only the counters `reset_session_state` sets are modelled.
- The random number generator is not modelled. The sample positions, the two shuffles and the offset are parameters constrained to be a sample, permutations and a value in [3, 8].
- Floating point and `:.0%` formatting are not modelled. The progress is the integer pair done/start, the accuracy is the pair `n_correct`/`n_seen`, and thresholds are compared by cross-multiplication. `correct_perc == 1` is taken as `n_correct == n_seen`, which the float division gives exactly for counts of this size.
- `int(110000 / L)` is modelled as integer division. For 0 < L ≤ 110000 the float quotient truncates to the same value.
- `.lower()` is modelled as ASCII case folding. Other Unicode case mappings are not modelled.
- The `app.py` script is modelled only through `Session.StartSession`, `Session.Render` and `Session.Turn`. Its call order is assumed: start, present the front, one button press per rerun.
- `Config.dict` is class reflection and is not modelled. Its defaults are the constant `Cards.DefaultConfig`.
- `Session.NextQuestion` is modelled, but neither `app.py` nor the form callbacks call it. In the app only the "Volgende" callback (`Session.OnNext`) advances. `next_question` leaves `answer_submitted` as it was, so the model does not promise the session invariant after it pops the last entry of a submitted queue (`Session.NextQuestionPreservesWf`).
- The stray `breakpoint()` before the stop for an end index past the eligible list is taken as that stop: `NotEnoughQuestions`.
- `initialize_queue` does not check start ≥ end. The model keeps the resulting empty slice, and infinite practice then divides by zero (`DivisionByZero`, src/flip_cards/app_utils.py:503).
- `show_progress` divides by zero when the denominator is 0, as with an empty range. The model returns `DivisionByZero`.
- Queue.Select: in random mode, it states the length, membership and distinctness of the sample, not which positions were drawn. The positions are a free parameter.
- Session.Wf: the queue is a permutation of the stored selection only right after the start (`Session.StartSession`). After a re-insertion or an advance, the invariant states only that every queue entry is in the selection. A re-inserted question occurs twice in the queue, so the queue is not a sub-multiset of the selection.

## Behaviour kept as written


- The excluded-tags filter applies even when questions are selected (src/flip_cards/app_utils.py:465-471). Only the form hides that widget when questions are selected (src/flip_cards/app_utils.py:248-249, 352-354).
- After a miss and the next advance, a re-inserted question is preceded by min(r, len) − 1 entries, that is 2 to 7, or it is last (src/flip_cards/app_utils.py:637, 596).
- The `n_questions_selected == 1` override also fires for a range of width one, which becomes a random sample of one (src/flip_cards/app_utils.py:379, 392-394).

=== FILE: answers.dfy ===
/**
 Answer comparison. `check_answer` lower-cases both strings and compares them;
 case folding is modelled for the ASCII letters.
 */
module Answers {

  function FoldChar(ch: char): char {
    if 'A' <= ch <= 'Z' then (ch as int + 32) as char else ch
  }

  function Lower(s: string): string {
    seq(|s|, i requires 0 <= i < |s| => FoldChar(s[i]))
  }

  /** The comparison of `check_answer`: equal after lower-casing. */
  predicate Matches(given: string, expected: string) {
    Lower(given) == Lower(expected)
  }

  /* Two characters that are the same letter up to ASCII case, or equal. */
  predicate SameUpToCase(a: char, b: char) {
    || a == b
    || ('A' <= a <= 'Z' && b as int == a as int + 32)
    || ('A' <= b <= 'Z' && a as int == b as int + 32)
  }

  /** Matching is position-wise equality up to case: no trimming, no fuzzy
      matching, and strings of different lengths never match. */
  lemma MatchesIsCaseInsensitiveEquality(given: string, expected: string)
    ensures Matches(given, expected) <==>
      |given| == |expected| && forall i :: 0 <= i < |given| ==> SameUpToCase(given[i], expected[i])
  {
    if Matches(given, expected) {
      assert |given| == |Lower(given)| == |Lower(expected)| == |expected|;
      forall i | 0 <= i < |given| ensures SameUpToCase(given[i], expected[i]) {
        assert Lower(given)[i] == Lower(expected)[i];
      }
    }
    if |given| == |expected| && forall i :: 0 <= i < |given| ==> SameUpToCase(given[i], expected[i]) {
      forall i | 0 <= i < |given| ensures Lower(given)[i] == Lower(expected)[i] {
        assert SameUpToCase(given[i], expected[i]);
      }
    }
  }

  /** Matching is an equivalence: reflexive, symmetric and transitive. */
  lemma MatchesIsEquivalence(a: string, b: string, c: string)
    ensures Matches(a, a)
    ensures Matches(a, b) ==> Matches(b, a)
    ensures Matches(a, b) && Matches(b, c) ==> Matches(a, c)
  {
  }
}

=== FILE: cards.dfy ===
/**
 The data the quiz engine works on: the question corpus with its parallel
 list of correct answers, the configuration dictionary of a session, and the
 outcome type that stands for the places where the program stops (`st.stop()`)
 or raises.
 */
module Cards {

  /** One quiz item. `tags` is a Python list and may repeat a tag. */
  datatype Question = Question(prompt: string, info: string, tags: seq<string>)

  /** The corpus: question objects and their correct answers, index by index. */
  datatype Corpus = Corpus(questions: seq<Question>, answers: seq<string>) {
    /** The two lists are parallel (the assertion closing the data loader). */
    predicate Valid() {
      |questions| == |answers|
    }

    function Size(): nat {
      |questions|
    }
  }

  /** The lower-cased keys of the configuration class, one field each. */
  datatype Config = Config(
    questionStartIndex: int,     // inclusive start of the range into the eligible list
    questionEndIndex: int,       // exclusive end of that range
    nRandomQuestions: int,       // size of the random sample
    answerSuggestions: bool,     // offer the answers as a drop-down
    randomSelection: bool,       // random sample instead of a range
    infinitePractice: bool,      // repeat the selection up to a large bound
    selectedQuestions: seq<string>,
    includedTags: seq<string>,
    excludedTags: seq<string>
  )

  /** The class defaults: range [0, 3), two random questions, every flag off
      and no filter. */
  const DefaultConfig: Config :=
    Config(0, 3, 2, false, false, false, [], [], [])

  /** Why the program stops instead of producing a value. */
  datatype Error =
    | NoEligibleQuestions   // the filters leave nothing: message and st.stop()
    | NotEnoughQuestions    // the range or the sample asks for more than is eligible
    | NegativeSampleSize    // random.sample raises ValueError for a negative size
    | DivisionByZero        // Python raises ZeroDivisionError
    | EmptyQueue            // queue[0] or queue.pop(0) on an empty queue

  datatype Result<+T> = Ok(value: T) | Err(error: Error)

  datatype Option<+T> = None | Some(value: T)
}

=== FILE: filter.dfy ===
/**
 Which questions a configuration admits. Three passes over the corpus (selected
 answers, included tags, excluded tags) build index lists exactly as the loops
 of `app_utils.py` do; their sets are intersected and sorted. The result is
 proved to be the ascending list of the indices that pass all three tests.
 */
module Filter {
  import opened Cards
  import opened Seqs

  /* Some tag of `tags` is a member of the list `wanted`. */
  predicate HasTagIn(tags: seq<string>, wanted: seq<string>) {
    exists k :: 0 <= k < |tags| && tags[k] in wanted
  }

  /* The three tests, each vacuous when its configuration list is empty. */
  predicate PassesSelected(c: Corpus, f: Config, i: int)
    requires c.Valid() && 0 <= i < c.Size()
  {
    |f.selectedQuestions| == 0 || c.answers[i] in f.selectedQuestions
  }

  predicate PassesIncluded(c: Corpus, f: Config, i: int)
    requires 0 <= i < c.Size()
  {
    |f.includedTags| == 0 || HasTagIn(c.questions[i].tags, f.includedTags)
  }

  predicate PassesExcluded(c: Corpus, f: Config, i: int)
    requires 0 <= i < c.Size()
  {
    |f.excludedTags| == 0 || !HasTagIn(c.questions[i].tags, f.excludedTags)
  }

  /** An index is eligible when it passes all three tests. The excluded-tags
      test applies whatever the selected questions are. */
  predicate Eligible(c: Corpus, f: Config, i: int)
    requires c.Valid()
  {
    && 0 <= i < c.Size()
    && PassesSelected(c, f, i)
    && PassesIncluded(c, f, i)
    && PassesExcluded(c, f, i)
  }

  /** The loop over the first `k` questions that keeps an index when its
      answer is among the selected questions, or always when none are. */
  function FromSelectedQuestions(c: Corpus, f: Config, k: nat): (r: seq<int>)
    requires c.Valid() && k <= c.Size()
    ensures StrictlyIncreasing(r) && Within(r, k)
    ensures forall i :: 0 <= i < k ==> (i in r <==> PassesSelected(c, f, i))
  {
    if k == 0 then []
    else
      var acc := FromSelectedQuestions(c, f, k - 1);
      var i := k - 1;
      if |f.selectedQuestions| > 0 then
        (if c.answers[i] in f.selectedQuestions then acc + [i] else acc)
      else
        acc + [i]
  }

  /* The inner loop over one question's tags: one append per tag found in the
     included list, so an index can be appended several times. */
  function IncludedHits(tags: seq<string>, included: seq<string>, i: int): (r: seq<int>)
    ensures forall k :: 0 <= k < |r| ==> r[k] == i
    ensures |r| > 0 <==> HasTagIn(tags, included)
  {
    if |tags| == 0 then []
    else
      var rest := IncludedHits(tags[1..], included, i);
      assert HasTagIn(tags, included) <==> tags[0] in included || HasTagIn(tags[1..], included) by {
        if HasTagIn(tags[1..], included) {
          var k :| 0 <= k < |tags[1..]| && tags[1..][k] in included;
          assert tags[k + 1] in included;
        }
      }
      (if tags[0] in included then [i] else []) + rest
  }

  /* Counting the included tags among the tags from position j on. */
  lemma {:induction false} IncludedHitsCountFrom(tags: seq<string>, included: seq<string>, i: int, j: nat)
    requires j <= |tags|
    ensures |IncludedHits(tags[j..], included, i)| ==
      |set k | j <= k < |tags| && tags[k] in included|
    decreases |tags| - j
  {
    var here := set k | j <= k < |tags| && tags[k] in included;
    if j == |tags| {
      assert here == {};
    } else {
      IncludedHitsCountFrom(tags, included, i, j + 1);
      var later := set k | j + 1 <= k < |tags| && tags[k] in included;
      assert tags[j..][1..] == tags[j + 1..];
      if tags[j] in included {
        assert here == later + {j};
      } else {
        assert here == later;
      }
    }
  }

  /** The tag loop appends the index once per tag position holding an
      included tag: a tag listed twice is counted twice. */
  lemma IncludedHitsCount(tags: seq<string>, included: seq<string>, i: int)
    ensures |IncludedHits(tags, included, i)| ==
      |set k | 0 <= k < |tags| && tags[k] in included|
  {
    IncludedHitsCountFrom(tags, included, i, 0);
    assert tags[0..] == tags;
  }

  /** The loop over the first `k` questions for the included tags. Its result
      is ascending but may repeat an index. */
  function FromIncludedTags(c: Corpus, f: Config, k: nat): (r: seq<int>)
    requires k <= c.Size()
    ensures forall a, b :: 0 <= a < b < |r| ==> r[a] <= r[b]
    ensures Within(r, k)
    ensures forall i :: 0 <= i < k ==> (i in r <==> PassesIncluded(c, f, i))
  {
    if k == 0 then []
    else
      var acc := FromIncludedTags(c, f, k - 1);
      var i := k - 1;
      if |f.includedTags| > 0 then
        var hits := IncludedHits(c.questions[i].tags, f.includedTags, i);
        assert |hits| > 0 ==> hits[0] == i;
        acc + hits
      else
        acc + [i]
  }

  /* The inner loop of the excluded tags: the index just appended to `l` is
     popped again at the first tag found in the excluded list. */
  function PopOnFirstMatch(l: seq<int>, tags: seq<string>, excluded: seq<string>): (r: seq<int>)
    requires |l| > 0
    ensures r == if HasTagIn(tags, excluded) then l[..|l| - 1] else l
  {
    if |tags| == 0 then l
    else if tags[0] in excluded then l[..|l| - 1]
    else
      assert HasTagIn(tags, excluded) <==> HasTagIn(tags[1..], excluded) by {
        if HasTagIn(tags[1..], excluded) {
          var k :| 0 <= k < |tags[1..]| && tags[1..][k] in excluded;
          assert tags[k + 1] in excluded;
        }
      }
      PopOnFirstMatch(l, tags[1..], excluded)
  }

  /** The loop over the first `k` questions for the excluded tags. The
      append-then-pop pattern leaves each index at most once. */
  function FromExcludedTags(c: Corpus, f: Config, k: nat): (r: seq<int>)
    requires k <= c.Size()
    ensures StrictlyIncreasing(r) && Within(r, k)
    ensures forall i :: 0 <= i < k ==> (i in r <==> PassesExcluded(c, f, i))
  {
    if k == 0 then []
    else
      var acc := FromExcludedTags(c, f, k - 1);
      var i := k - 1;
      if |f.excludedTags| > 0 then
        PopOnFirstMatch(acc + [i], c.questions[i].tags, f.excludedTags)
      else
        acc + [i]
  }

  /** `sorted(list(s))` for a set of indices below `bound`. */
  function SortedIndices(s: set<int>, bound: nat): (r: seq<int>)
    requires forall x :: x in s ==> 0 <= x < bound
    ensures StrictlyIncreasing(r) && Within(r, bound)
    ensures forall x :: x in r <==> x in s
  {
    if bound == 0 then []
    else
      var top := bound - 1;
      SortedIndices(s - {top}, top) + (if top in s then [top] else [])
  }

  /** Both tag passes, intersected and sorted. */
  function FromSelectedTags(c: Corpus, f: Config): (r: seq<int>)
    requires c.Valid()
    ensures StrictlyIncreasing(r) && Within(r, c.Size())
    ensures forall i :: i in r <==>
      0 <= i < c.Size() && PassesIncluded(c, f, i) && PassesExcluded(c, f, i)
  {
    var n := c.Size();
    SortedIndices(Elements(FromIncludedTags(c, f, n)) * Elements(FromExcludedTags(c, f, n)), n)
  }

  /** The eligible list: the selected-questions pass intersected with both
      tag passes, sorted. */
  function PossibleQuestionIndices(c: Corpus, f: Config): (r: seq<int>)
    requires c.Valid()
    ensures StrictlyIncreasing(r) && Within(r, c.Size())
    ensures forall i :: i in r <==> Eligible(c, f, i)
  {
    var n := c.Size();
    SortedIndices(Elements(FromSelectedQuestions(c, f, n)) * Elements(FromSelectedTags(c, f)), n)
  }

  /** Reference definition: walk the indices 0 .. k-1 once and keep the
      eligible ones. */
  function EligibleUpTo(c: Corpus, f: Config, k: nat): (r: seq<int>)
    requires c.Valid() && k <= c.Size()
    ensures StrictlyIncreasing(r) && Within(r, k)
    ensures forall i :: 0 <= i < k ==> (i in r <==> Eligible(c, f, i))
  {
    if k == 0 then []
    else EligibleUpTo(c, f, k - 1) + (if Eligible(c, f, k - 1) then [k - 1] else [])
  }

  /** The three passes, the intersections and the sorting compute exactly the
      single filtering walk over the corpus. */
  lemma PossibleIsSingleWalk(c: Corpus, f: Config)
    requires c.Valid()
    ensures PossibleQuestionIndices(c, f) == EligibleUpTo(c, f, c.Size())
  {
    var r := PossibleQuestionIndices(c, f);
    var e := EligibleUpTo(c, f, c.Size());
    forall x ensures x in r <==> x in e {
      if x in e {
        var k :| 0 <= k < |e| && e[k] == x;
      }
    }
    AscendingUnique(r, e);
  }

  /** Only the three filter lists decide eligibility: the range, the sample
      size and the flags do not. */
  lemma SameFiltersSameEligible(c: Corpus, f: Config, g: Config)
    requires c.Valid()
    requires f.selectedQuestions == g.selectedQuestions
    requires f.includedTags == g.includedTags && f.excludedTags == g.excludedTags
    ensures PossibleQuestionIndices(c, f) == PossibleQuestionIndices(c, g)
  {
    var r := PossibleQuestionIndices(c, f);
    var e := PossibleQuestionIndices(c, g);
    forall x ensures x in r <==> x in e {
      assert Eligible(c, f, x) == Eligible(c, g, x);
    }
    AscendingUnique(r, e);
  }

  /** With no filter at all every question is eligible, in corpus order. */
  lemma NoFilterAdmitsAll(c: Corpus)
    requires c.Valid()
    ensures PossibleQuestionIndices(c, DefaultConfig) == seq(c.Size(), i => i)
  {
    var r := PossibleQuestionIndices(c, DefaultConfig);
    var all: seq<int> := seq(c.Size(), i => i);
    assert StrictlyIncreasing(all);
    forall x ensures x in r <==> x in all {
      if 0 <= x < c.Size() {
        assert all[x] == x;
      }
    }
    AscendingUnique(r, all);
  }

  /* A corpus of one question: the eligible list is [0] or empty. */
  lemma SingleQuestionEligible(c: Corpus, f: Config)
    requires c.Valid() && c.Size() == 1
    ensures PossibleQuestionIndices(c, f) == if Eligible(c, f, 0) then [0] else []
  {
    var r := PossibleQuestionIndices(c, f);
    var e: seq<int> := if Eligible(c, f, 0) then [0] else [];
    forall x ensures x in r <==> x in e {
      assert x in r <==> Eligible(c, f, x);
    }
    AscendingUnique(r, e);
  }

  /** The excluded tags still filter when questions are selected explicitly:
      selecting "Koolmees" while excluding its tag "mees" leaves nothing,
      whereas without the exclusion it leaves that question. */
  lemma ExcludedTagsApplyToSelectedQuestions()
    ensures
      var c := Corpus([Question("Koolmees?", "", ["klein", "mees"])], ["Koolmees"]);
      var f := DefaultConfig.(selectedQuestions := ["Koolmees"], excludedTags := ["mees"]);
      && PossibleQuestionIndices(c, f) == []
      && PossibleQuestionIndices(c, f.(excludedTags := [])) == [0]
  {
    var c := Corpus([Question("Koolmees?", "", ["klein", "mees"])], ["Koolmees"]);
    var f := DefaultConfig.(selectedQuestions := ["Koolmees"], excludedTags := ["mees"]);
    var g := f.(excludedTags := []);
    assert !Eligible(c, f, 0) by {
      assert c.questions[0].tags[1] in f.excludedTags;
    }
    assert Eligible(c, g, 0) by {
      assert c.answers[0] in g.selectedQuestions;
    }
    SingleQuestionEligible(c, f);
    SingleQuestionEligible(c, g);
  }
}

=== FILE: progress.dfy ===
/**
 The progress bar: how many questions are done out of how many, the share of
 correct answers and the feedback emoji, reduced to integers. Percentages
 are the fractions nDone/nStart and nCorrect/nSeen; the emoji thresholds are
 compared by cross-multiplication.
 */
module Progress {
  import opened Cards
  import opened Seqs
  import opened Queue
  import opened Session

  /** The nine feedback emoji, best first. */
  datatype Tier =
    | Perfect | Excellent | VeryGood | Good | Average
    | BelowAverage | Poor | VeryPoor | ExtremelyPoor

  function Rank(t: Tier): nat {
    match t
    case Perfect => 0
    case Excellent => 1
    case VeryGood => 2
    case Good => 3
    case Average => 4
    case BelowAverage => 5
    case Poor => 6
    case VeryPoor => 7
    case ExtremelyPoor => 8
  }

  /** The lower bounds 0.9, 0.8, 0.7, 0.6, 0.5, 0.4, 0.2 of the tiers of rank
      1 to 7, as fractions (numerator, denominator). */
  function Threshold(k: nat): (int, int)
    requires 1 <= k <= 7
  {
    [(9, 10), (4, 5), (7, 10), (3, 5), (1, 2), (2, 5), (1, 5)][k - 1]
  }

  /* `num / den >= p / q` for positive denominators. */
  predicate AtLeast(num: int, den: int, p: int, q: int) {
    q * num >= p * den
  }

  /** `_get_feedback_emoji` applied to the accuracy num/den: exactly one is
      the top tier, then the thresholds from the highest down. */
  function FeedbackTier(num: int, den: int): Tier
    requires den > 0
  {
    if num == den then Perfect
    else if AtLeast(num, den, 9, 10) then Excellent
    else if AtLeast(num, den, 4, 5) then VeryGood
    else if AtLeast(num, den, 7, 10) then Good
    else if AtLeast(num, den, 3, 5) then Average
    else if AtLeast(num, den, 1, 2) then BelowAverage
    else if AtLeast(num, den, 2, 5) then Poor
    else if AtLeast(num, den, 1, 5) then VeryPoor
    else ExtremelyPoor
  }

  /** For an accuracy between 0 and 1, the tier has rank at most k exactly
      when the accuracy reaches the k-th threshold, and rank 0 exactly when
      the accuracy is 1. */
  lemma TierThresholds(num: int, den: int)
    requires 0 <= num <= den && den > 0
    ensures Rank(FeedbackTier(num, den)) == 0 <==> num == den
    ensures forall k :: 1 <= k <= 7 ==>
      (Rank(FeedbackTier(num, den)) <= k <==> AtLeast(num, den, Threshold(k).0, Threshold(k).1))
  {
    forall k | 1 <= k <= 7
      ensures Rank(FeedbackTier(num, den)) <= k <==> AtLeast(num, den, Threshold(k).0, Threshold(k).1)
    {
      if num == den {
        assert AtLeast(num, den, Threshold(k).0, Threshold(k).1);
      }
    }
  }

  lemma MulMonotone(x: int, y: int, z: int)
    requires x <= y && z >= 0
    ensures x * z <= y * z
  {
  }

  /* If a/b <= c/d and a/b reaches p/q, so does c/d. */
  lemma AtLeastMonotone(a: int, b: int, c: int, d: int, p: int, q: int)
    requires b > 0 && d > 0 && q > 0
    requires a * d <= c * b && AtLeast(a, b, p, q)
    ensures AtLeast(c, d, p, q)
  {
    MulMonotone(p * b, q * a, d);
    MulMonotone(a * d, c * b, q);
    assert (q * c) * b >= (p * d) * b;
    if q * c < p * d {
      MulMonotone(q * c + 1, p * d, b);
    }
  }

  /** A better accuracy never gets a worse emoji. */
  lemma TierMonotone(a: int, b: int, c: int, d: int)
    requires 0 <= a <= b && b > 0
    requires 0 <= c <= d && d > 0
    requires a * d <= c * b
    ensures Rank(FeedbackTier(c, d)) <= Rank(FeedbackTier(a, b))
  {
    TierThresholds(a, b);
    TierThresholds(c, d);
    var k := Rank(FeedbackTier(a, b));
    if k == 0 {
      assert a == b;
      MulMonotone(d, c, b);
    } else if k <= 7 {
      var (p, q) := Threshold(k);
      AtLeastMonotone(a, b, c, d, p, q);
    }
  }

  /** What `show_progress` displays. */
  datatype Report = Report(
    nDone: int,
    nStart: int,
    nCorrect: int,
    nSeen: nat,
    accuracy: (int, int),   // numerator and positive denominator
    tier: Option<Tier>      // no emoji before the first answer
  )

  /** `show_progress`. The progress percentage divides by `nStart`, which
      raises when it is zero. */
  function ShowProgress(s: State): (r: Result<Report>)
    ensures r.Err? <==> !s.config.infinitePractice && s.nQuestions == 0
    ensures r.Err? ==> r.error == DivisionByZero
    ensures r.Ok? ==>
      r.value.nStart == (if s.config.infinitePractice then InfiniteCap else s.nQuestions)
    ensures r.Ok? && s.config.infinitePractice ==>
      r.value.nDone == InfiniteCap - (if s.answerSubmitted then |s.queue| - 1 else |s.queue|)
    ensures r.Ok? && !s.config.infinitePractice ==>
      r.value.nDone == s.nQuestions - |Elements(s.questionIndices) - s.seen.Members()|
    ensures r.Ok? ==> r.value.nCorrect == s.nCorrect
    ensures r.Ok? ==> r.value.accuracy.1 > 0 && r.value.nSeen == s.seen.Count()
    ensures r.Ok? && r.value.nSeen == 0 ==> r.value.tier == None && r.value.accuracy == (0, 1)
    ensures r.Ok? && r.value.nSeen > 0 ==>
      && r.value.accuracy == (s.nCorrect, s.seen.Count() as int)
      && r.value.tier == Some(FeedbackTier(s.nCorrect, s.seen.Count()))
  {
    var infinite := s.config.infinitePractice;
    var nStart := if !infinite then s.nQuestions else InfiniteCap;
    var nLeft :=
      if infinite then (if s.answerSubmitted then |s.queue| - 1 else |s.queue|)
      else |Elements(s.questionIndices) - s.seen.Members()|;
    var nDone := nStart - nLeft;
    if nStart == 0 then Err(DivisionByZero)
    else
      var nSeen := s.seen.Count();
      var accuracy := if nSeen > 0 then (s.nCorrect, nSeen as int) else (0, 1);
      var tier := if nSeen > 0 then Some(FeedbackTier(s.nCorrect, nSeen)) else None;
      Ok(Report(nDone, nStart, s.nCorrect, nSeen, accuracy, tier))
  }

  lemma DifferenceCardinality(a: set<int>, b: set<int>)
    requires b <= a
    ensures |a - b| == |a| - |b|
  {
    assert a == (a - b) + b;
  }

  /** In finite mode the number done is the number of distinct questions
      seen, between 0 and the denominator fixed at the start; the accuracy
      never exceeds 1. */
  lemma FiniteProgressBounds(s: State, n: nat)
    requires Wf(s, n) && Tracking(s) && !s.config.infinitePractice
    ensures ShowProgress(s).Err? <==> s.nQuestions == 0
    ensures ShowProgress(s).Ok? ==>
      var p := ShowProgress(s).value;
      && p.nStart == s.nQuestions == |s.questionIndices|
      && p.nDone == s.seen.Count()
      && 0 <= p.nDone <= p.nStart
      && 0 <= p.accuracy.0 <= p.accuracy.1
  {
    DistinctCardinality(s.questionIndices);
    assert Elements(s.questionIndices) == set x | x in s.questionIndices;
    DifferenceCardinality(Elements(s.questionIndices), s.seen.Members());
    assert |s.seen.Members()| <= |Elements(s.questionIndices)| by {
      assert Elements(s.questionIndices) == (Elements(s.questionIndices) - s.seen.Members()) + s.seen.Members();
    }
  }

  /** In infinite practice the denominator is the fixed cap and the number
      done stays between 0 and that cap. */
  lemma InfiniteProgressBounds(s: State, n: nat)
    requires Wf(s, n) && s.config.infinitePractice
    ensures ShowProgress(s).Ok?
    ensures var p := ShowProgress(s).value;
      && p.nStart == InfiniteCap
      && 0 <= p.nDone <= InfiniteCap
      && 0 <= p.accuracy.0 <= p.accuracy.1
  {
  }

  /** Re-insertions, answers and advances never change the progress
      denominator, nor whether it can be divided by. */
  lemma ProgressDenominatorStable(s: State, c: Corpus, clicks: seq<Click>)
    requires c.Valid() && Wf(s, c.Size()) && Rendered(s, c)
    requires forall k :: 0 <= k < |clicks| ==> ValidClick(clicks[k])
    ensures ShowProgress(Run(s, c, clicks)).Ok? <==> ShowProgress(s).Ok?
    ensures ShowProgress(s).Ok? ==>
      ShowProgress(Run(s, c, clicks)).value.nStart == ShowProgress(s).value.nStart
  {
    RunPreservesInvariant(s, c, clicks);
  }

  /** Re-inserting a missed question in finite mode lengthens the queue but
      leaves the progress report as it was: finite progress counts distinct
      questions seen, not queue entries. */
  lemma ReinsertionKeepsProgress(s: State, offset: int)
    requires s.current.Some? && MinOffset <= offset <= MaxOffset
    requires !s.config.infinitePractice && !s.answerCorrect
    ensures ShowProgress(UpdateQueue(s, offset)) == ShowProgress(s)
  {
  }
}

=== FILE: queue.dfy ===
/**
 Building the delivery queue from the eligible list: a range slice or a random
 sample, expanded by repetition in infinite-practice mode, remembered as
 `question_indices` before the final shuffle, and shuffled into the queue.
 The random choices are parameters: the positions `random.sample` picks and
 the two permutations `random.shuffle` applies.
 */
module Queue {
  import opened Cards
  import opened Seqs

  /** Infinite practice repeats the selection until it has about this many
      entries ... */
  const InfiniteTarget: nat := 110000
  /** ... and then keeps this many of them. */
  const InfiniteCap: nat := 100000

  /** The outcomes of the random calls made while building a queue. */
  datatype Draws = Draws(
    sample: seq<nat>,        // positions picked by random.sample
    expandOrder: seq<nat>,   // the shuffle of the repeated list (infinite practice)
    queueOrder: seq<nat>     // the final shuffle of the queue
  )

  /** The two lists the session keeps: the selection before the final
      shuffle, and the shuffled queue itself. */
  datatype Queues = Queues(questionIndices: seq<int>, queue: seq<int>)

  function Min(a: int, b: int): int {
    if a <= b then a else b
  }

  /* The sample positions are meaningful whenever the sample is taken. */
  predicate SampleFits(eligible: seq<int>, cfg: Config, sample: seq<nat>) {
    cfg.randomSelection && 0 <= cfg.nRandomQuestions <= |eligible| ==>
      IsSample(sample, cfg.nRandomQuestions, |eligible|)
  }

  /** The selection step of `initialize_queue`: its stops in the order it
      checks them, then the slice `eligible[start:end]` or the sample. */
  function Select(eligible: seq<int>, cfg: Config, sample: seq<nat>): (r: Result<seq<int>>)
    requires SampleFits(eligible, cfg, sample)
    ensures |eligible| == 0 ==> r == Err(NoEligibleQuestions)
    ensures |eligible| > 0 && !cfg.randomSelection ==>
      (r.Err? <==> cfg.questionEndIndex > |eligible|)
    ensures |eligible| > 0 && cfg.randomSelection ==>
      (r.Err? <==> cfg.nRandomQuestions > |eligible| || cfg.nRandomQuestions < 0)
    ensures r.Err? ==>
      (r.error == NoEligibleQuestions || r.error == NotEnoughQuestions
       || (r.error == NegativeSampleSize && cfg.nRandomQuestions < 0))
    ensures r.Ok? ==> Covered(r.value, eligible)
    ensures r.Ok? && !cfg.randomSelection && 0 <= cfg.questionStartIndex <= cfg.questionEndIndex ==>
      r.value == eligible[cfg.questionStartIndex..cfg.questionEndIndex]
    ensures r.Ok? && !cfg.randomSelection && 0 <= cfg.questionEndIndex <= cfg.questionStartIndex ==>
      r.value == []
    ensures r.Ok? && cfg.randomSelection ==>
      |r.value| == cfg.nRandomQuestions && (Distinct(eligible) ==> Distinct(r.value))
  {
    if |eligible| == 0 then Err(NoEligibleQuestions)
    else if !cfg.randomSelection then
      if cfg.questionEndIndex > |eligible| then Err(NotEnoughQuestions)
      else Ok(PySlice(eligible, cfg.questionStartIndex, cfg.questionEndIndex))
    else if cfg.nRandomQuestions > |eligible| then Err(NotEnoughQuestions)
    else if cfg.nRandomQuestions < 0 then Err(NegativeSampleSize)
    else
      var picked := Gather(eligible, sample);
      assert Distinct(eligible) ==> Distinct(picked) by {
        if Distinct(eligible) { GatherDistinct(eligible, sample); }
      }
      Ok(picked)
  }

  /* `int(110000 / L)`: for 0 < L the float quotient truncates to the
     integer quotient. */
  function RepeatCount(l: nat): nat
    requires l > 0
  {
    InfiniteTarget / l
  }

  function ExpandedLength(l: nat): nat
    requires l > 0
  {
    l * RepeatCount(l)
  }

  /** Every selection of at most 10000 questions fills the cap. */
  lemma SmallSelectionFillsCap(l: nat)
    requires 0 < l <= 10000
    ensures ExpandedLength(l) > InfiniteCap
  {
    var q := InfiniteTarget / l;
    assert InfiniteTarget == l * q + InfiniteTarget % l;
    assert InfiniteTarget % l < l;
  }

  /** The infinite-practice expansion: repeat, shuffle, keep the first
      100000. An empty selection divides by zero. */
  function Expand(selected: seq<int>, order: seq<nat>): (r: Result<seq<int>>)
    requires |selected| > 0 ==> IsPermutation(order, ExpandedLength(|selected|))
    ensures r.Err? <==> |selected| == 0
    ensures r.Err? ==> r.error == DivisionByZero
    ensures r.Ok? ==>
      |r.value| == Min(InfiniteCap, |selected| * (InfiniteTarget / |selected|))
    ensures r.Ok? && |selected| <= 10000 ==> |r.value| == InfiniteCap
    ensures r.Ok? ==> Covered(r.value, selected)
  {
    if |selected| == 0 then Err(DivisionByZero)
    else
      var repeated := Repeat(selected, RepeatCount(|selected|));
      PermuteMultiset(repeated, order);
      var shuffled := Gather(repeated, order);
      assert Covered(shuffled, selected) by {
        forall k | 0 <= k < |shuffled| ensures shuffled[k] in selected {
          assert shuffled[k] in multiset(repeated);
        }
      }
      assert |selected| <= 10000 ==> |shuffled| > InfiniteCap by {
        if |selected| <= 10000 { SmallSelectionFillsCap(|selected|); }
      }
      Ok(shuffled[..Min(InfiniteCap, |shuffled|)])
  }

  /* The expansion permutation is meaningful whenever it is applied. */
  predicate ExpandFits(eligible: seq<int>, cfg: Config, draws: Draws)
    requires SampleFits(eligible, cfg, draws.sample)
  {
    match Select(eligible, cfg, draws.sample)
    case Ok(sel) => cfg.infinitePractice && |sel| > 0 ==>
      IsPermutation(draws.expandOrder, ExpandedLength(|sel|))
    case Err(_) => true
  }

  /* The list stored as `question_indices`. */
  function Pool(eligible: seq<int>, cfg: Config, draws: Draws): Result<seq<int>>
    requires SampleFits(eligible, cfg, draws.sample) && ExpandFits(eligible, cfg, draws)
  {
    match Select(eligible, cfg, draws.sample)
    case Ok(sel) => if cfg.infinitePractice then Expand(sel, draws.expandOrder) else Ok(sel)
    case Err(e) => Err(e)
  }

  /** The random draws fit the lists they are applied to. */
  predicate DrawsFit(eligible: seq<int>, cfg: Config, draws: Draws) {
    && SampleFits(eligible, cfg, draws.sample)
    && ExpandFits(eligible, cfg, draws)
    && (Pool(eligible, cfg, draws).Ok? ==>
          IsPermutation(draws.queueOrder, |Pool(eligible, cfg, draws).value|))
  }

  /** `initialize_queue` applied to the eligible list. */
  function InitializeQueue(eligible: seq<int>, cfg: Config, draws: Draws): (r: Result<Queues>)
    requires DrawsFit(eligible, cfg, draws)
    ensures r.Ok? ==> multiset(r.value.queue) == multiset(r.value.questionIndices)
    ensures r.Ok? ==> Covered(r.value.questionIndices, eligible)
    ensures r.Ok? && cfg.infinitePractice ==> |r.value.questionIndices| <= InfiniteCap
  {
    match Pool(eligible, cfg, draws)
    case Err(e) => Err(e)
    case Ok(indices) =>
      PermuteMultiset(indices, draws.queueOrder);
      assert Covered(indices, eligible) by {
        var sel := Select(eligible, cfg, draws.sample).value;
        if cfg.infinitePractice {
          forall k | 0 <= k < |indices| ensures indices[k] in eligible {
            assert indices[k] in sel;
          }
        }
      }
      Ok(Queues(indices, Gather(indices, draws.queueOrder)))
  }

  /** The stops of `initialize_queue`, in the order it checks them, and the
      division by zero of infinite practice on an empty selection. */
  lemma InitializeQueueFailures(eligible: seq<int>, cfg: Config, draws: Draws)
    requires DrawsFit(eligible, cfg, draws)
    ensures |eligible| == 0 ==> InitializeQueue(eligible, cfg, draws) == Err(NoEligibleQuestions)
    ensures (|eligible| > 0 && !cfg.randomSelection && cfg.questionEndIndex > |eligible|) ==>
      InitializeQueue(eligible, cfg, draws) == Err(NotEnoughQuestions)
    ensures (|eligible| > 0 && cfg.randomSelection && cfg.nRandomQuestions > |eligible|) ==>
      InitializeQueue(eligible, cfg, draws) == Err(NotEnoughQuestions)
    ensures (|eligible| > 0 && cfg.randomSelection && cfg.nRandomQuestions < 0) ==>
      InitializeQueue(eligible, cfg, draws) == Err(NegativeSampleSize)
    ensures (|eligible| > 0 && cfg.infinitePractice && cfg.randomSelection && cfg.nRandomQuestions == 0) ==>
      InitializeQueue(eligible, cfg, draws) == Err(DivisionByZero)
    ensures (|eligible| > 0 && cfg.infinitePractice && !cfg.randomSelection
             && 0 <= cfg.questionEndIndex <= cfg.questionStartIndex
             && cfg.questionEndIndex <= |eligible|) ==>
      InitializeQueue(eligible, cfg, draws) == Err(DivisionByZero)
  {
    var sel := Select(eligible, cfg, draws.sample);
    if sel.Ok? && cfg.infinitePractice && |sel.value| == 0 {
      assert Pool(eligible, cfg, draws) == Err(DivisionByZero);
    }
  }

  /** A queue is built whenever none of the stops applies and, in infinite
      practice, the selection is not empty. Together with
      `InitializeQueueFailures` this covers every mode, for non-negative
      range bounds, the only ones the form's slider produces. */
  lemma InitializeQueueSucceeds(eligible: seq<int>, cfg: Config, draws: Draws)
    requires DrawsFit(eligible, cfg, draws)
    requires |eligible| > 0
    requires !cfg.randomSelection ==> cfg.questionEndIndex <= |eligible|
    requires cfg.randomSelection ==> 0 <= cfg.nRandomQuestions <= |eligible|
    requires cfg.infinitePractice && cfg.randomSelection ==> cfg.nRandomQuestions > 0
    requires (cfg.infinitePractice && !cfg.randomSelection) ==>
      0 <= cfg.questionStartIndex < cfg.questionEndIndex
    ensures InitializeQueue(eligible, cfg, draws).Ok?
  {
  }

  /** Range mode without infinite practice stores exactly the slice
      `eligible[start:end]`. */
  lemma RangeSelectsSlice(eligible: seq<int>, cfg: Config, draws: Draws)
    requires DrawsFit(eligible, cfg, draws)
    requires !cfg.infinitePractice && !cfg.randomSelection
    requires 0 <= cfg.questionStartIndex <= cfg.questionEndIndex <= |eligible|
    requires |eligible| > 0
    ensures InitializeQueue(eligible, cfg, draws).Ok?
    ensures InitializeQueue(eligible, cfg, draws).value.questionIndices
      == eligible[cfg.questionStartIndex..cfg.questionEndIndex]
  {
  }

  /** Random mode without infinite practice stores n distinct eligible
      indices. */
  lemma RandomSelectsDistinct(eligible: seq<int>, cfg: Config, draws: Draws)
    requires DrawsFit(eligible, cfg, draws)
    requires !cfg.infinitePractice && cfg.randomSelection
    requires StrictlyIncreasing(eligible)
    requires 0 <= cfg.nRandomQuestions <= |eligible| && |eligible| > 0
    ensures InitializeQueue(eligible, cfg, draws).Ok?
    ensures var qi := InitializeQueue(eligible, cfg, draws).value.questionIndices;
      |qi| == cfg.nRandomQuestions && Distinct(qi) && Covered(qi, eligible)
  {
  }

  /** Infinite practice stores min(100000, L * int(110000 / L)) entries, all
      taken from the selection of size L. */
  lemma InfiniteLength(eligible: seq<int>, cfg: Config, draws: Draws)
    requires DrawsFit(eligible, cfg, draws)
    requires cfg.infinitePractice
    requires InitializeQueue(eligible, cfg, draws).Ok?
    ensures var sel := Select(eligible, cfg, draws.sample);
      var qi := InitializeQueue(eligible, cfg, draws).value.questionIndices;
      && sel.Ok? && |sel.value| > 0
      && |qi| == Min(InfiniteCap, |sel.value| * (InfiniteTarget / |sel.value|))
      && Covered(qi, sel.value)
  {
  }
}

=== FILE: scenario.dfy ===
/**
 Concrete sessions, worked through the model step by step.
 */
module Scenario {
  import opened Cards
  import opened Seqs
  import opened Filter
  import opened Queue
  import opened Suggestions
  import opened Session
  import opened Answers
  import opened Progress

  const Birds: Corpus :=
    Corpus([Question("Zwart met gele snavel?", "", ["lijster"]),
            Question("Oranje borst?", "", ["lijster", "tuin"])],
           ["Merel", "Roodborst"])

  /** The range [0, 2) of the bird corpus, in finite mode. */
  const BirdsConfig: Config := DefaultConfig.(questionEndIndex := 2)

  /** Draws that leave the queue in selection order. */
  const KeepOrder: Draws := Draws([], [], [0, 1])

  /** That session as started, before its first question is shown. */
  const Started: State :=
    State(BirdsConfig, [0, 1], [0, 1], ["Merel", "Roodborst"], SeenSet({}),
          0, 2, None, "", false, false, false, false, false)

  /** The first screen of that session. */
  const Opening: State := Started.(current := Some(Card(0, "Merel")))

  /* Without filters, a corpus of two questions has both eligible. */
  lemma TwoUnfiltered(c: Corpus, f: Config)
    requires c.Valid() && c.Size() == 2
    requires f.selectedQuestions == [] && f.includedTags == [] && f.excludedTags == []
    ensures PossibleQuestionIndices(c, f) == [0, 1]
  {
    var r := PossibleQuestionIndices(c, f);
    forall x ensures x in r <==> x in [0, 1] {
      assert x in r <==> Eligible(c, f, x);
      assert x in [0, 1] <==> 0 <= x < 2;
    }
    assert StrictlyIncreasing([0, 1]);
    AscendingUnique(r, [0, 1]);
  }

  lemma BirdsAllEligible()
    ensures Birds.Valid() && PossibleQuestionIndices(Birds, BirdsConfig) == [0, 1]
  {
    assert Birds.Valid() && Birds.Size() == 2;
    TwoUnfiltered(Birds, BirdsConfig);
  }

  /* The whole range of a two-element list, left in order. */
  lemma WholeRangeInOrder(eligible: seq<int>, cfg: Config)
    requires |eligible| == 2 && !cfg.randomSelection && !cfg.infinitePractice
    requires cfg.questionStartIndex == 0 && cfg.questionEndIndex == 2
    ensures DrawsFit(eligible, cfg, KeepOrder)
    ensures InitializeQueue(eligible, cfg, KeepOrder) == Ok(Queues(eligible, eligible))
  {
    assert Select(eligible, cfg, []) == Ok(eligible) by {
      assert eligible[0..2] == eligible;
    }
    assert IsPermutation([0, 1], 2) by {
      assert Range(2) == [0, 1];
    }
    assert Gather(eligible, [0, 1]) == eligible;
  }

  lemma BirdsQueues()
    ensures DrawsFit([0, 1], BirdsConfig, KeepOrder)
    ensures InitializeQueue([0, 1], BirdsConfig, KeepOrder) == Ok(Queues([0, 1], [0, 1]))
  {
    WholeRangeInOrder([0, 1], BirdsConfig);
  }

  lemma BirdsSuggestions()
    ensures DefineAnswerSuggestions(Birds, [0, 1]) == ["Merel", "Roodborst"]
  {
    var answers := seq(2, k requires 0 <= k < 2 => Birds.answers[[0, 1][k]]);
    assert answers == ["Merel", "Roodborst"];
    assert answers[..1] == ["Merel"] && answers[..1][..0] == [];
    assert SortedDistinct(["Merel"]) == ["Merel"];
    assert StrLess("Merel", "Roodborst");
    assert InsertSorted(["Merel"], "Roodborst") == ["Merel", "Roodborst"] by {
      assert ["Merel"][1..] == [];
    }
  }

  /** Starting the session and rendering it gives `Opening`. */
  lemma OpeningIsStart()
    ensures Birds.Valid() && DrawsFit(PossibleQuestionIndices(Birds, BirdsConfig), BirdsConfig, KeepOrder)
    ensures StartSession(Birds, BirdsConfig, KeepOrder).Ok?
    ensures Wf(StartSession(Birds, BirdsConfig, KeepOrder).value, Birds.Size())
    ensures Render(StartSession(Birds, BirdsConfig, KeepOrder).value, Birds) == Opening
  {
    BirdsAllEligible();
    BirdsQueues();
    BirdsSuggestions();
    var started := StartSession(Birds, BirdsConfig, KeepOrder).value;
    assert started == Started;
  }

  /** The session can run over the bird corpus from state `s`. */
  predicate Ready(s: State) {
    Birds.Valid() && Wf(s, Birds.Size()) && Rendered(s, Birds)
  }

  /* The screens of the session below, one per click. */
  const Missed: State :=
    Opening.(queue := [0, 1, 0], seen := SeenSet({0}), givenAnswer := "Koolmees",
             answerChecked := true, answerSubmitted := true)
  const OnRoodborst: State :=
    Missed.(queue := [1, 0], current := Some(Card(1, "Roodborst")),
            answerChecked := false, answerSubmitted := false)
  const RoodborstRight: State :=
    OnRoodborst.(seen := SeenSet({0, 1}), nCorrect := 1, givenAnswer := "roodborst",
                 answerChecked := true, answerSubmitted := true, answerCorrect := true)
  const MerelAgain: State :=
    RoodborstRight.(queue := [0], current := Some(Card(0, "Merel")),
                    answerChecked := false, answerSubmitted := false)
  const MerelRight: State :=
    MerelAgain.(givenAnswer := "MEREL", answerChecked := true, answerSubmitted := true)
  const Finished: State :=
    MerelRight.(queue := [], answerChecked := false, answerSubmitted := false,
                clearAnswerField := true)

  const Clicks: seq<Click> :=
    [Click("Koolmees", 3), Click("", 3), Click("roodborst", 5),
     Click("", 5), Click("MEREL", 8), Click("", 8)]

  lemma OpeningReady()
    ensures Ready(Opening)
  {
    OpeningIsStart();
  }

  /* The wrong answer re-inserts Merel at position 2 of [0, 1]. */
  lemma MissCheck()
    ensures OnCheck(Opening, "Koolmees", 3) == Missed
  {
    assert !Matches("Koolmees", "Merel") by {
      assert Lower("Koolmees")[0] != Lower("Merel")[0];
    }
    var submitted := Opening.(givenAnswer := "Koolmees", answerSubmitted := true);
    var checked := CheckAnswer(submitted);
    assert checked == Missed.(queue := Opening.queue) by {
      assert {} + {0} == {0};
    }
    assert Insert([0, 1], 2, 0) == [0, 1, 0];
    assert UpdateQueue(checked, 3) == Missed;
  }

  lemma MissStep()
    ensures Ready(Opening) && Turn(Opening, Birds, Clicks[0]) == Missed
  {
    OpeningReady();
    MissCheck();
    assert Render(Missed, Birds) == Missed;
  }

  lemma AdvanceToRoodborst()
    ensures Ready(Missed) && Turn(Missed, Birds, Clicks[1]) == OnRoodborst
  {
    MissStep();
  }

  lemma RoodborstStep()
    ensures Ready(OnRoodborst) && Turn(OnRoodborst, Birds, Clicks[2]) == RoodborstRight
  {
    AdvanceToRoodborst();
    assert Matches("roodborst", "Roodborst") by {
      MatchesIsCaseInsensitiveEquality("roodborst", "Roodborst");
    }
    assert {0} + {1} == {0, 1};
  }

  lemma AdvanceToMerel()
    ensures Ready(RoodborstRight) && Turn(RoodborstRight, Birds, Clicks[3]) == MerelAgain
  {
    RoodborstStep();
  }

  lemma MerelStep()
    ensures Ready(MerelAgain) && Turn(MerelAgain, Birds, Clicks[4]) == MerelRight
  {
    AdvanceToMerel();
    assert Matches("MEREL", "Merel") by {
      MatchesIsCaseInsensitiveEquality("MEREL", "Merel");
    }
    assert {0, 1} + {0} == {0, 1};
  }

  lemma FinishStep()
    ensures Ready(MerelRight) && Turn(MerelRight, Birds, Clicks[5]) == Finished
  {
    MerelStep();
  }

  lemma ClicksValid()
    ensures forall k :: 0 <= k < |Clicks| ==> ValidClick(Clicks[k])
  {
  }

  /* The clicks from position `k` on are all valid. */
  predicate ClicksValidFrom(k: nat)
    requires k <= |Clicks|
  {
    forall j :: 0 <= j < |Clicks[k..]| ==> ValidClick(Clicks[k..][j])
  }

  /* Click `k` takes `s` to `u`, and the run from `u` over the later clicks
     ends in `v`: so does the run from `s` over clicks `k` onwards. */
  lemma RunFrom(s: State, k: nat, u: State, v: State)
    requires k < |Clicks| && Ready(s) && Ready(u) && ValidClick(Clicks[k])
    requires ClicksValidFrom(k) && ClicksValidFrom(k + 1)
    requires Turn(s, Birds, Clicks[k]) == u
    requires Run(u, Birds, Clicks[k + 1..]) == v
    ensures Run(s, Birds, Clicks[k..]) == v
  {
    assert Clicks[k..][0] == Clicks[k];
    assert Clicks[k..][1..] == Clicks[k + 1..];
  }

  lemma AllClicksValidFrom(k: nat)
    requires k <= |Clicks|
    ensures ClicksValidFrom(k)
  {
    ClicksValid();
    forall j | 0 <= j < |Clicks[k..]| ensures ValidClick(Clicks[k..][j]) {
      assert Clicks[k..][j] == Clicks[k + j];
    }
  }

  lemma RunFromMerelRight()
    ensures Ready(MerelRight) && ClicksValidFrom(5)
    ensures Run(MerelRight, Birds, Clicks[5..]) == Finished
  {
    AllClicksValidFrom(5);
    AllClicksValidFrom(6);
    FinishStep();
    assert Clicks[6..] == [];
    RunFrom(MerelRight, 5, Finished, Finished);
  }

  lemma RunFromMerelAgain()
    ensures Ready(MerelAgain) && ClicksValidFrom(4)
    ensures Run(MerelAgain, Birds, Clicks[4..]) == Finished
  {
    AllClicksValidFrom(4);
    RunFromMerelRight();
    MerelStep();
    RunFrom(MerelAgain, 4, MerelRight, Finished);
  }

  lemma RunFromRoodborstRight()
    ensures Ready(RoodborstRight) && ClicksValidFrom(3)
    ensures Run(RoodborstRight, Birds, Clicks[3..]) == Finished
  {
    AllClicksValidFrom(3);
    RunFromMerelAgain();
    AdvanceToMerel();
    RunFrom(RoodborstRight, 3, MerelAgain, Finished);
  }

  lemma RunFromOnRoodborst()
    ensures Ready(OnRoodborst) && ClicksValidFrom(2)
    ensures Run(OnRoodborst, Birds, Clicks[2..]) == Finished
  {
    AllClicksValidFrom(2);
    RunFromRoodborstRight();
    RoodborstStep();
    RunFrom(OnRoodborst, 2, RoodborstRight, Finished);
  }

  lemma RunFromMissed()
    ensures Ready(Missed) && ClicksValidFrom(1)
    ensures Run(Missed, Birds, Clicks[1..]) == Finished
  {
    AllClicksValidFrom(1);
    RunFromOnRoodborst();
    AdvanceToRoodborst();
    RunFrom(Missed, 1, OnRoodborst, Finished);
  }

  /* Click 0 takes `s` to `u`, and the run from `u` over the later clicks
     ends in `v`: so does the run from `s` over all the clicks. */
  lemma RunFromStart(s: State, u: State, v: State)
    requires Ready(s) && Ready(u) && ClicksValidFrom(1)
    requires forall k :: 0 <= k < |Clicks| ==> ValidClick(Clicks[k])
    requires Turn(s, Birds, Clicks[0]) == u
    requires Run(u, Birds, Clicks[1..]) == v
    ensures Run(s, Birds, Clicks) == v
  {
  }

  /** A wrong answer on Merel, then Roodborst and Merel typed in other cases:
      Merel comes back after Roodborst, only the first attempt at each question
      counts, and the session ends with the queue empty, one correct answer
      and both questions seen. */
  lemma RetryDoesNotCount()
    ensures Ready(Opening) && ClicksValidFrom(0)
    ensures Run(Opening, Birds, Clicks) == Finished
    ensures Finished.queue == [] && Finished.nCorrect == 1 && Finished.seen == SeenSet({0, 1})
  {
    ClicksValid();
    AllClicksValidFrom(0);
    RunFromMissed();
    MissStep();
    RunFromStart(Opening, Missed, Finished);
  }

  /** At the end of that session the progress bar shows 2 of 2 done, an
      accuracy of one in two and the 50 % emoji. */
  lemma FinishedReport()
    ensures ShowProgress(Finished) == Ok(Report(2, 2, 1, 2, (1, 2), Some(BelowAverage)))
  {
    assert Elements(Finished.questionIndices) == {0, 1} by {
      assert Finished.questionIndices == [0, 1];
    }
    assert Elements(Finished.questionIndices) - Finished.seen.Members() == {};
  }

  /** A question carrying an included tag twice is appended twice by the
      included-tags pass; the intersection with the other passes removes the
      repeat. */
  lemma IncludedTagsRepeatAnIndex()
    ensures
      var c := Corpus([Question("Oranje borst?", "", ["tuin", "tuin"])], ["Roodborst"]);
      var f := DefaultConfig.(includedTags := ["tuin"]);
      && FromIncludedTags(c, f, 1) == [0, 0]
      && PossibleQuestionIndices(c, f) == [0]
  {
    var c := Corpus([Question("Oranje borst?", "", ["tuin", "tuin"])], ["Roodborst"]);
    var f := DefaultConfig.(includedTags := ["tuin"]);
    var tags := c.questions[0].tags;
    assert tags[1..] == ["tuin"] && tags[1..][1..] == [];
    assert IncludedHits(tags[1..], f.includedTags, 0) == [0];
    assert IncludedHits(tags, f.includedTags, 0) == [0, 0];
    assert FromIncludedTags(c, f, 1) == FromIncludedTags(c, f, 0) + IncludedHits(tags, f.includedTags, 0);
    var r := PossibleQuestionIndices(c, f);
    assert 0 in r;
    AscendingUnique(r, [0]);
  }
}

=== FILE: seqs.dfy ===
/**
 Sequence vocabulary shared by the quiz engine: ordering and uniqueness
 predicates, index permutations (the model of `random.shuffle`), gathering by
 positions (the model of `random.sample` and of applying a permutation),
 Python's `list * k`, `list.insert` and `list[a:b]`.
 */
module Seqs {

  /* Strictly ascending, hence also free of duplicates. */
  predicate StrictlyIncreasing(s: seq<int>) {
    forall i, j :: 0 <= i < j < |s| ==> s[i] < s[j]
  }

  predicate Distinct<T(==)>(s: seq<T>) {
    forall i, j :: 0 <= i < j < |s| ==> s[i] != s[j]
  }

  /* Every element lies in the half-open range [0, n). */
  predicate Within(s: seq<int>, n: int) {
    forall k :: 0 <= k < |s| ==> 0 <= s[k] < n
  }

  /* Every element of `s` is also an element of `t`. */
  predicate Covered<T(==)>(s: seq<T>, t: seq<T>) {
    forall k :: 0 <= k < |s| ==> s[k] in t
  }

  /* The set of a list's elements, Python's `set(s)`. */
  function Elements(s: seq<int>): set<int> {
    set x | x in s
  }

  /* The list [0, 1, ..., m-1]. */
  function Range(m: nat): (r: seq<nat>)
    ensures |r| == m
    ensures forall i :: 0 <= i < m ==> r[i] == i
  {
    seq(m, i => i)
  }

  /* `p` is a rearrangement of the positions 0 .. m-1. */
  predicate IsPermutation(p: seq<nat>, m: nat) {
    multiset(p) == multiset(Range(m))
  }

  /* `p` lists `n` distinct positions of a list of length `m`: the positions
     `random.sample` picks. */
  predicate IsSample(p: seq<nat>, n: nat, m: nat) {
    |p| == n && Distinct(p) && forall k :: 0 <= k < |p| ==> p[k] < m
  }

  predicate Positions<T>(s: seq<T>, idx: seq<nat>) {
    forall k :: 0 <= k < |idx| ==> idx[k] < |s|
  }

  /* The elements of `s` at the given positions, in the order of `idx`. */
  function Gather<T>(s: seq<T>, idx: seq<nat>): (r: seq<T>)
    requires Positions(s, idx)
    ensures |r| == |idx|
    ensures forall k :: 0 <= k < |idx| ==> r[k] == s[idx[k]]
  {
    seq(|idx|, k requires 0 <= k < |idx| => s[idx[k]])
  }

  /* Python's `s * k`. */
  function Repeat<T(==)>(s: seq<T>, k: nat): (r: seq<T>)
    ensures |r| == |s| * k
    ensures forall j :: 0 <= j < |r| ==> r[j] in s
  {
    if k == 0 then [] else s + Repeat(s, k - 1)
  }

  /* Python's `s.insert(p, x)` for 0 <= p <= len(s). */
  function Insert<T(==)>(s: seq<T>, p: nat, x: T): (r: seq<T>)
    requires p <= |s|
    ensures |r| == |s| + 1
    ensures r[p] == x
    ensures forall k :: 0 <= k < p ==> r[k] == s[k]
    ensures forall k :: p <= k < |s| ==> r[k + 1] == s[k]
    ensures multiset(r) == multiset(s) + multiset{x}
  {
    assert s == s[..p] + s[p..];
    s[..p] + [x] + s[p..]
  }

  /* How Python normalises one bound of a slice with step 1: a negative bound
     counts from the end, and the result is clamped to [0, n]. */
  function SliceBound(i: int, n: nat): (b: nat)
    ensures b <= n
    ensures 0 <= i <= n ==> b == i
  {
    if i < 0 then (if i + n < 0 then 0 else i + n)
    else if i > n then n
    else i
  }

  /* Python's `s[start:end]`. */
  function PySlice<T(==)>(s: seq<T>, start: int, end: int): (r: seq<T>)
    ensures 0 <= start <= end <= |s| ==> r == s[start..end]
    ensures |r| <= |s|
    ensures forall k :: 0 <= k < |r| ==> r[k] in s
  {
    var a := SliceBound(start, |s|);
    var b := SliceBound(end, |s|);
    if a < b then s[a..b] else []
  }

  lemma {:induction false} DistinctCounts<T>(s: seq<T>)
    ensures Distinct(s) <==> forall x :: multiset(s)[x] <= 1
  {
    if |s| == 0 {
    } else {
      var t := s[1..];
      assert s == [s[0]] + t;
      DistinctCounts(t);
      if Distinct(s) {
        forall j | 0 <= j < |t| ensures t[j] != s[0] {
          assert t[j] == s[j + 1];
        }
        assert Distinct(t) by {
          forall i, j | 0 <= i < j < |t| ensures t[i] != t[j] {
            assert t[i] == s[i + 1] && t[j] == s[j + 1];
          }
        }
      } else {
        var i, j :| 0 <= i < j < |s| && s[i] == s[j];
        if i == 0 {
          assert s[j] == t[j - 1];
          assert multiset(s)[s[0]] == 1 + multiset(t)[s[0]];
        } else {
          assert !Distinct(t) by {
            assert t[i - 1] == s[i] && t[j - 1] == s[j];
          }
          var x :| multiset(t)[x] > 1;
          assert multiset(s)[x] >= multiset(t)[x];
        }
      }
    }
  }

  /* A permutation of the positions of a list is a list of distinct valid
     positions of the right length. */
  lemma PermutationIsSample(p: seq<nat>, m: nat)
    requires IsPermutation(p, m)
    ensures IsSample(p, m, m)
  {
    assert |p| == |multiset(p)| == |multiset(Range(m))| == m;
    DistinctCounts(Range(m));
    DistinctCounts(p);
    forall k | 0 <= k < |p| ensures p[k] < m {
      assert p[k] in multiset(Range(m));
    }
  }

  /* Removing the entry at position k takes exactly that element out. */
  lemma RemoveAt<T>(b: seq<T>, k: nat)
    requires k < |b|
    ensures multiset(b) == multiset(b[..k] + b[k + 1..]) + multiset{b[k]}
  {
    assert b == b[..k] + [b[k]] + b[k + 1..];
  }

  lemma GatherRemoveAt<T>(s: seq<T>, b: seq<nat>, k: nat)
    requires Positions(s, b) && k < |b|
    ensures Positions(s, b[..k] + b[k + 1..])
    ensures multiset(Gather(s, b)) == multiset(Gather(s, b[..k] + b[k + 1..])) + multiset{s[b[k]]}
  {
    var g := Gather(s, b);
    RemoveAt(g, k);
    assert g[..k] + g[k + 1..] == Gather(s, b[..k] + b[k + 1..]);
  }

  lemma MultisetCancel<T>(p: multiset<T>, q: multiset<T>, x: T)
    requires p + multiset{x} == q + multiset{x}
    ensures p == q
  {
    forall y ensures p[y] == q[y] {
      assert (p + multiset{x})[y] == (q + multiset{x})[y];
    }
  }

  /* Gathering by two rearrangements of the same positions yields two
     rearrangements of the same elements. */
  lemma {:induction false} GatherMultiset<T>(s: seq<T>, a: seq<nat>, b: seq<nat>)
    requires Positions(s, a) && Positions(s, b)
    requires multiset(a) == multiset(b)
    ensures multiset(Gather(s, a)) == multiset(Gather(s, b))
    decreases |a|
  {
    if |a| == 0 {
      assert |b| == |multiset(b)| == 0;
    } else {
      var x := a[0];
      assert x in multiset(b);
      var k :| 0 <= k < |b| && b[k] == x;
      var a' := a[..0] + a[1..];
      var b' := b[..k] + b[k + 1..];
      assert multiset(a') == multiset(b') by {
        calc {
          multiset(a') + multiset{x};
          { RemoveAt(a, 0); }
          multiset(a);
          multiset(b);
          { RemoveAt(b, k); }
          multiset(b') + multiset{x};
        }
        MultisetCancel(multiset(a'), multiset(b'), x);
      }
      GatherRemoveAt(s, b, k);
      GatherRemoveAt(s, a, 0);
      GatherMultiset(s, a', b');
    }
  }

  /* Applying a permutation of positions rearranges the list without adding,
     losing or duplicating anything. */
  lemma PermuteMultiset<T>(s: seq<T>, p: seq<nat>)
    requires IsPermutation(p, |s|)
    ensures Positions(s, p) && |p| == |s|
    ensures multiset(Gather(s, p)) == multiset(s)
  {
    PermutationIsSample(p, |s|);
    GatherMultiset(s, p, Range(|s|));
    assert Gather(s, Range(|s|)) == s;
  }

  /* Positions that are distinct pick distinct elements from a list without
     duplicates. */
  lemma GatherDistinct<T>(s: seq<T>, idx: seq<nat>)
    requires Positions(s, idx) && Distinct(s) && Distinct(idx)
    ensures Distinct(Gather(s, idx))
  {
  }

  /* A duplicate-free list has as many distinct elements as entries. */
  lemma {:induction false} DistinctCardinality<T>(s: seq<T>)
    requires Distinct(s)
    ensures |set x | x in s| == |s|
  {
    if |s| > 0 {
      var t := s[1..];
      assert Distinct(t) by {
        forall i, j | 0 <= i < j < |t| ensures t[i] != t[j] {
          assert t[i] == s[i + 1] && t[j] == s[j + 1];
        }
      }
      DistinctCardinality(t);
      forall j | 0 <= j < |t| ensures t[j] != s[0] {
        assert t[j] == s[j + 1];
      }
      assert s == [s[0]] + t;
      assert (set x | x in s) == (set x | x in t) + {s[0]};
    }
  }

  /* Two strictly ascending lists with the same elements are equal: sorting a
     set yields exactly one list. */
  lemma {:induction false} AscendingUnique(a: seq<int>, b: seq<int>)
    requires StrictlyIncreasing(a) && StrictlyIncreasing(b)
    requires forall x :: x in a <==> x in b
    ensures a == b
    decreases |a| + |b|
  {
    if |a| > 0 { assert a[0] in a; }
    if |b| > 0 { assert b[0] in b; }
    if |a| > 0 && |b| > 0 {
      assert a[0] in b && b[0] in a;
      assert a[0] == b[0] by {
        var i :| 0 <= i < |b| && b[i] == a[0];
        var j :| 0 <= j < |a| && a[j] == b[0];
        assert b[0] <= a[0] && a[0] <= b[0];
      }
      forall x ensures x in a[1..] <==> x in b[1..] {
        if x in a[1..] {
          var i :| 1 <= i < |a| && a[i] == x;
          assert x != b[0] && x in b;
          var j :| 0 <= j < |b| && b[j] == x;
          assert j != 0;
          assert x == b[1..][j - 1];
        }
        if x in b[1..] {
          var i :| 1 <= i < |b| && b[i] == x;
          assert x != a[0] && x in a;
          var j :| 0 <= j < |a| && a[j] == x;
          assert j != 0;
          assert x == a[1..][j - 1];
        }
      }
      AscendingUnique(a[1..], b[1..]);
    }
  }
}

=== FILE: session.dfy ===
/**
 The session state of an overhoring and the actions that change it: starting a
 session, presenting the front of the queue, checking an answer (with the
 re-insertion of a missed question) and advancing to the next question.
 The Streamlit `session_state` dictionary becomes the record `State`; each
 callback becomes a function from state to state.
 */
module Session {
  import opened Cards
  import opened Seqs
  import opened Filter
  import opened Queue
  import opened Answers
  import opened Suggestions

  /** `random.randint(3, 8)` bounds the re-insertion offset. */
  const MinOffset: int := 3
  const MaxOffset: int := 8

  /** The questions seen so far: a set in finite mode, a list (with repeats)
      in infinite practice. */
  datatype Seen = SeenSet(elems: set<int>) | SeenList(entries: seq<int>) {
    function Count(): nat {
      match this
      case SeenSet(e) => |e|
      case SeenList(l) => |l|
    }

    function Members(): set<int> {
      match this
      case SeenSet(e) => e
      case SeenList(l) => Elements(l)
    }

    /** `append` on the list, `add` on the set. */
    function Add(i: int): (r: Seen)
      ensures r.SeenList? == SeenList?
      ensures r.Members() == Members() + {i}
      ensures r.Count() == Count() + (if SeenList? || i !in Members() then 1 else 0)
    {
      match this
      case SeenList(l) =>
        assert Elements(l + [i]) == Elements(l) + {i};
        SeenList(l + [i])
      case SeenSet(e) =>
        assert i !in e ==> |e + {i}| == |e| + 1;
        assert i in e ==> e + {i} == e;
        SeenSet(e + {i})
    }
  }

  /** The question on screen: its index and its correct answer. */
  datatype Card = Card(index: int, answer: string)

  datatype State = State(
    config: Config,               // the configuration frozen at the start
    queue: seq<int>,              // the front is the current question
    questionIndices: seq<int>,    // the selection before the final shuffle
    suggestions: seq<string>,
    seen: Seen,
    nCorrect: int,
    nQuestions: int,              // the progress denominator in finite mode
    current: Option<Card>,        // set when a question is presented
    givenAnswer: string,
    answerChecked: bool,
    answerSubmitted: bool,
    answerCorrect: bool,
    nextQuestion: bool,
    clearAnswerField: bool
  )

  /** `_get_n_questions_selected`. */
  function NQuestionsSelected(cfg: Config): int {
    if cfg.randomSelection then cfg.nRandomQuestions
    else cfg.questionEndIndex - cfg.questionStartIndex
  }

  /** The session invariant over a corpus of `n` questions. */
  predicate Wf(s: State, n: nat) {
    && (s.seen.SeenList? <==> s.config.infinitePractice)
    && Within(s.questionIndices, n)
    && Covered(s.queue, s.questionIndices)
    && s.seen.Members() <= Elements(s.questionIndices)
    && (s.current.Some? ==> s.current.value.index in s.questionIndices)
    && 0 <= s.nCorrect <= s.seen.Count()
    && (s.config.infinitePractice ==> |s.queue| <= |s.questionIndices| <= InfiniteCap)
    && (s.answerSubmitted ==> |s.queue| > 0)
  }

  /** In finite mode the stored selection has no repeats and the progress
      denominator is its length. */
  predicate Tracking(s: State) {
    !s.config.infinitePractice ==>
      Distinct(s.questionIndices) && s.nQuestions == |s.questionIndices|
  }

  /** The screen shows the front of the queue. */
  predicate Rendered(s: State, c: Corpus)
    requires c.Valid() && Within(s.queue, c.Size())
  {
    |s.queue| > 0 ==> s.current == Some(Card(s.queue[0], c.answers[s.queue[0]]))
  }

  /** `reset_session_state`: zero the counters, clear the per-question flags
      and start an empty seen collection of the kind the mode uses. */
  function ResetSessionState(s: State): (r: State)
    ensures r.nCorrect == 0 && r.seen.Count() == 0 && r.seen.Members() == {}
    ensures r.seen.SeenList? <==> r.config.infinitePractice
    ensures !r.answerChecked && !r.answerSubmitted && !r.nextQuestion
    ensures r.nQuestions == NQuestionsSelected(s.config)
    ensures r.(nCorrect := s.nCorrect, nextQuestion := s.nextQuestion, answerChecked := s.answerChecked,
               answerSubmitted := s.answerSubmitted, nQuestions := s.nQuestions, seen := s.seen) == s
  {
    s.(nCorrect := 0,
       nextQuestion := false,
       answerChecked := false,
       answerSubmitted := false,
       nQuestions := NQuestionsSelected(s.config),
       seen := if s.config.infinitePractice then SeenList([]) else SeenSet({}))
  }

  /** Pressing "Start overhoring": with no eligible question the form stops;
      when exactly one question would be asked, the frozen configuration
      switches to a random sample of one. */
  function StartConfig(draft: Config, nPreselected: nat): (r: Result<Config>)
    ensures r.Err? <==> nPreselected == 0
    ensures r.Err? ==> r.error == NoEligibleQuestions
    ensures r.Ok? && nPreselected == 1 ==>
      r.value.randomSelection && r.value.nRandomQuestions == 1
    ensures r.Ok? && (nPreselected == 1 || NQuestionsSelected(draft) == 1) ==>
      r.value == draft.(randomSelection := true, nRandomQuestions := 1)
    ensures r.Ok? && nPreselected > 1 && NQuestionsSelected(draft) != 1 ==> r.value == draft
    ensures r.Ok? ==> r.value.(randomSelection := draft.randomSelection,
                               nRandomQuestions := draft.nRandomQuestions) == draft
  {
    if nPreselected == 0 then Err(NoEligibleQuestions)
    else
      var nSelected := if nPreselected == 1 then 1 else NQuestionsSelected(draft);
      if nSelected == 1 then Ok(draft.(randomSelection := true, nRandomQuestions := 1))
      else Ok(draft)
  }

  /** A range of width one is replaced by a random sample of one question,
      which may be a different question than the one in the range. */
  lemma SingleRangeBecomesRandom(draft: Config, nPreselected: nat)
    requires nPreselected > 1 && !draft.randomSelection
    requires draft.questionEndIndex == draft.questionStartIndex + 1
    ensures StartConfig(draft, nPreselected) ==
      Ok(draft.(randomSelection := true, nRandomQuestions := 1))
  {
  }

  /* What the queues `initialize_queue` builds give the started session. */
  lemma StartedQueueFacts(c: Corpus, cfg: Config, draws: Draws)
    requires c.Valid()
    requires DrawsFit(PossibleQuestionIndices(c, cfg), cfg, draws)
    requires InitializeQueue(PossibleQuestionIndices(c, cfg), cfg, draws).Ok?
    ensures var q := InitializeQueue(PossibleQuestionIndices(c, cfg), cfg, draws).value;
      && Within(q.questionIndices, c.Size())
      && Covered(q.queue, q.questionIndices)
      && |q.queue| == |q.questionIndices|
  {
    var eligible := PossibleQuestionIndices(c, cfg);
    var q := InitializeQueue(eligible, cfg, draws).value;
    assert |q.queue| == |q.questionIndices| by {
      assert |multiset(q.queue)| == |multiset(q.questionIndices)|;
    }
    assert Within(q.questionIndices, c.Size()) by {
      forall k | 0 <= k < |q.questionIndices| ensures 0 <= q.questionIndices[k] < c.Size() {
        var x := q.questionIndices[k];
        assert x in eligible;
        var j :| 0 <= j < |eligible| && eligible[j] == x;
      }
    }
    assert Covered(q.queue, q.questionIndices) by {
      forall k | 0 <= k < |q.queue| ensures q.queue[k] in q.questionIndices {
        assert q.queue[k] in multiset(q.queue);
      }
    }
  }

  /* In finite mode with a sample or a well-formed range, the stored
     selection of a started session has no repeats and its length is the
     number `_get_n_questions_selected` reports. */
  lemma StartedSelectionTracks(c: Corpus, cfg: Config, draws: Draws)
    requires c.Valid()
    requires DrawsFit(PossibleQuestionIndices(c, cfg), cfg, draws)
    requires InitializeQueue(PossibleQuestionIndices(c, cfg), cfg, draws).Ok?
    ensures var q := InitializeQueue(PossibleQuestionIndices(c, cfg), cfg, draws).value;
      !cfg.infinitePractice && (cfg.randomSelection || 0 <= cfg.questionStartIndex <= cfg.questionEndIndex) ==>
        Distinct(q.questionIndices) && |q.questionIndices| == NQuestionsSelected(cfg)
  {
    var eligible := PossibleQuestionIndices(c, cfg);
    var q := InitializeQueue(eligible, cfg, draws).value;
    if !cfg.infinitePractice && !cfg.randomSelection && 0 <= cfg.questionStartIndex <= cfg.questionEndIndex {
      var sel := Select(eligible, cfg, draws.sample);
      assert sel.Ok?;
      assert q.questionIndices == eligible[cfg.questionStartIndex..cfg.questionEndIndex];
    }
  }

  /** Starting a session (the block run when `initialize_queue` is set):
      build the queue from the eligible list, derive the suggestions, reset
      the counters. */
  function StartSession(c: Corpus, cfg: Config, draws: Draws): (r: Result<State>)
    requires c.Valid()
    requires DrawsFit(PossibleQuestionIndices(c, cfg), cfg, draws)
    ensures r.Ok? ==> Wf(r.value, c.Size())
    ensures r.Ok? ==> r.value.config == cfg && r.value.nCorrect == 0 && r.value.seen.Count() == 0
    ensures r.Ok? ==> multiset(r.value.queue) == multiset(r.value.questionIndices)
    ensures r.Ok? && !cfg.randomSelection && 0 <= cfg.questionStartIndex <= cfg.questionEndIndex ==>
      Tracking(r.value)
    ensures r.Ok? && cfg.randomSelection ==> Tracking(r.value)
    ensures r.Err? <==> InitializeQueue(PossibleQuestionIndices(c, cfg), cfg, draws).Err?
    ensures r.Ok? ==>
      var q := InitializeQueue(PossibleQuestionIndices(c, cfg), cfg, draws).value;
      && r.value.questionIndices == q.questionIndices
      && r.value.queue == q.queue
      && Covered(r.value.questionIndices, PossibleQuestionIndices(c, cfg))
      && r.value.suggestions == DefineAnswerSuggestions(c, r.value.questionIndices)
      && r.value.nQuestions == NQuestionsSelected(cfg)
      && r.value.current == None && !r.value.answerChecked && !r.value.answerSubmitted
  {
    var eligible := PossibleQuestionIndices(c, cfg);
    match InitializeQueue(eligible, cfg, draws)
    case Err(e) => Err(e)
    case Ok(q) =>
      StartedQueueFacts(c, cfg, draws);
      StartedSelectionTracks(c, cfg, draws);
      var initial := State(cfg, q.queue, q.questionIndices,
                         DefineAnswerSuggestions(c, q.questionIndices),
                         SeenSet({}), 0, 0, None, "", false, false, false, false, false);
      var started := ResetSessionState(initial);
      assert started == initial.(nQuestions := NQuestionsSelected(cfg), seen := started.seen);
      Ok(started)
  }

  /** The denominator `reset_session_state` fixes is the number of questions
      `initialize_queue` stores, in finite mode with a well-formed range or a
      sample. */
  lemma DenominatorIsSelectionSize(eligible: seq<int>, cfg: Config, draws: Draws)
    requires DrawsFit(eligible, cfg, draws) && !cfg.infinitePractice
    requires cfg.randomSelection || 0 <= cfg.questionStartIndex <= cfg.questionEndIndex
    requires InitializeQueue(eligible, cfg, draws).Ok?
    ensures var q := InitializeQueue(eligible, cfg, draws).value;
      |q.questionIndices| == |q.queue| == NQuestionsSelected(cfg)
  {
    var q := InitializeQueue(eligible, cfg, draws).value;
    assert |q.queue| == |multiset(q.queue)| == |multiset(q.questionIndices)|;
  }

  /* A random sample of one from a single eligible question, in finite
     mode, stores and queues that question. */
  lemma SampleOfOne(eligible: seq<int>, cfg: Config, draws: Draws)
    requires |eligible| == 1 && DrawsFit(eligible, cfg, draws)
    requires cfg.randomSelection && cfg.nRandomQuestions == 1 && !cfg.infinitePractice
    ensures InitializeQueue(eligible, cfg, draws) == Ok(Queues(eligible, eligible))
  {
    assert draws.sample == [0] by {
      assert IsSample(draws.sample, 1, 1);
    }
    assert Gather(eligible, [0]) == [eligible[0]];
    var sel := Select(eligible, cfg, draws.sample);
    assert sel == Ok(Gather(eligible, draws.sample));
    assert eligible == [eligible[0]];
    assert draws.queueOrder == [0] by {
      assert IsPermutation(draws.queueOrder, 1);
      assert multiset(Range(1)) == multiset{0} by { assert Range(1) == [0]; }
      assert |draws.queueOrder| == 1 by {
        assert |multiset(draws.queueOrder)| == |multiset{0}|;
      }
      assert draws.queueOrder[0] in multiset(draws.queueOrder);
    }
  }

  /** The start-button override, carried through the start of a finite
      session: when the filters leave exactly one question, the session asks
      exactly that question once and counts it as the whole denominator. */
  lemma OneEligibleGivesOneQuestion(c: Corpus, draft: Config, draws: Draws)
    requires c.Valid() && |PossibleQuestionIndices(c, draft)| == 1 && !draft.infinitePractice
    ensures StartConfig(draft, 1).Ok?
    ensures var cfg := StartConfig(draft, 1).value;
      DrawsFit(PossibleQuestionIndices(c, cfg), cfg, draws) ==>
        && StartSession(c, cfg, draws).Ok?
        && StartSession(c, cfg, draws).value.queue == PossibleQuestionIndices(c, draft)
        && StartSession(c, cfg, draws).value.nQuestions == 1
  {
    var cfg := StartConfig(draft, 1).value;
    assert cfg == draft.(randomSelection := true, nRandomQuestions := 1);
    SameFiltersSameEligible(c, cfg, draft);
    if DrawsFit(PossibleQuestionIndices(c, cfg), cfg, draws) {
      SampleOfOne(PossibleQuestionIndices(c, draft), cfg, draws);
    }
  }

  /** `get_current_question_answer_pair`: the front of the queue becomes the
      current question. An empty queue has no front. */
  function Present(s: State, c: Corpus): (r: Result<State>)
    requires c.Valid() && Within(s.queue, c.Size())
    ensures r.Err? <==> |s.queue| == 0
    ensures r.Err? ==> r.error == EmptyQueue
    ensures r.Ok? ==> r.value.(current := s.current) == s
    ensures r.Ok? ==> r.value.queue == s.queue && Rendered(r.value, c)
  {
    if |s.queue| == 0 then Err(EmptyQueue)
    else
      var i := s.queue[0];
      Ok(s.(current := Some(Card(i, c.answers[i]))))
  }

  /** `check_answer`: compare case-insensitively, count a correct answer
      (in finite mode only on the first encounter) and record the question
      as seen. */
  function CheckAnswer(s: State): (r: State)
    requires s.current.Some?
    requires s.seen.SeenList? <==> s.config.infinitePractice
    ensures r.answerChecked
    ensures r.answerCorrect <==> Matches(s.givenAnswer, s.current.value.answer)
    ensures r.nCorrect == s.nCorrect + 1 <==>
      r.answerCorrect && (s.config.infinitePractice || s.current.value.index !in s.seen.Members())
    ensures r.nCorrect == s.nCorrect || r.nCorrect == s.nCorrect + 1
    ensures r.seen.Members() == s.seen.Members() + {s.current.value.index}
    ensures r.seen.Count() == s.seen.Count() +
      (if s.config.infinitePractice || s.current.value.index !in s.seen.Members() then 1 else 0)
    ensures r.seen.SeenList? <==> r.config.infinitePractice
    ensures s.nCorrect <= s.seen.Count() ==> r.nCorrect <= r.seen.Count()
    ensures r.(answerChecked := s.answerChecked, answerCorrect := s.answerCorrect,
               nCorrect := s.nCorrect, seen := s.seen) == s
  {
    var given := Lower(s.givenAnswer);
    var expected := Lower(s.current.value.answer);
    var correct := given == expected;
    var infinite := s.config.infinitePractice;
    var index := s.current.value.index;
    var unseen := index !in s.seen.Members();
    var nCorrect := if correct && (infinite || (!infinite && unseen)) then s.nCorrect + 1 else s.nCorrect;
    var seen := s.seen.Add(index);
    s.(nCorrect := nCorrect, answerChecked := true, answerCorrect := correct, seen := seen)
  }

  /** `update_queue`: after a wrong answer in finite mode, put the current
      question back at position min(r, len(queue)). */
  function UpdateQueue(s: State, offset: int): (r: State)
    requires s.current.Some?
    requires MinOffset <= offset <= MaxOffset
    ensures s.answerCorrect || s.config.infinitePractice ==> r == s
    ensures !s.answerCorrect && !s.config.infinitePractice ==>
      var p := if offset < |s.queue| then offset else |s.queue|;
      && |r.queue| == |s.queue| + 1
      && r.queue[p] == s.current.value.index
      && r.queue[..p] == s.queue[..p]
      && r.queue[p + 1..] == s.queue[p..]
      && (|s.queue| > 0 ==> r.queue[0] == s.queue[0])
      && multiset(r.queue) == multiset(s.queue) + multiset{s.current.value.index}
    ensures r.(queue := s.queue) == s
  {
    if s.answerCorrect || s.config.infinitePractice then s
    else
      var index := s.current.value.index;
      var position := if offset < |s.queue| then offset else |s.queue|;
      var q := Insert(s.queue, position, index);
      assert q[..position] == s.queue[..position];
      assert q[position + 1..] == s.queue[position..];
      s.(queue := q)
  }

  /** The "Check" button: record the typed answer; if it is not empty, mark
      it submitted and, unless this question was already checked, check it
      and update the queue. */
  function OnCheck(s: State, answerField: string, offset: int): (r: State)
    requires MinOffset <= offset <= MaxOffset
    requires answerField != "" && !s.answerChecked ==>
      s.current.Some? && (s.seen.SeenList? <==> s.config.infinitePractice)
    ensures answerField == "" ==> r == s.(givenAnswer := "")
    ensures answerField != "" ==> r.answerSubmitted && r.answerChecked
    ensures answerField != "" && s.answerChecked ==>
      r == s.(givenAnswer := answerField, answerSubmitted := true)
    ensures answerField != "" && !s.answerChecked ==>
      && (r.answerCorrect <==> Matches(answerField, s.current.value.answer))
      && |r.queue| == |s.queue| + (if r.answerCorrect || s.config.infinitePractice then 0 else 1)
      && (|s.queue| > 0 ==> r.queue[0] == s.queue[0])
      && r.seen.Members() == s.seen.Members() + {s.current.value.index}
  {
    var s1 := s.(givenAnswer := answerField);
    if answerField == "" then s1
    else
      var s2 := s1.(answerSubmitted := true);
      if !s2.answerChecked then UpdateQueue(CheckAnswer(s2), offset)
      else s2
  }

  /** Pressing "Check" again with the same answer before advancing changes
      nothing: the counters, the seen collection and the queue stay as the
      first check left them, whatever offset is drawn. */
  lemma RepeatedCheckIsIdle(s: State, answerField: string, first: int, second: int)
    requires MinOffset <= first <= MaxOffset && MinOffset <= second <= MaxOffset
    requires answerField != ""
    requires !s.answerChecked ==> s.current.Some? && (s.seen.SeenList? <==> s.config.infinitePractice)
    ensures OnCheck(OnCheck(s, answerField, first), answerField, second) == OnCheck(s, answerField, first)
  {
  }

  /** The "Volgende" button: drop the front of the queue and clear the
      per-question flags. */
  function OnNext(s: State): (r: Result<State>)
    ensures r.Err? <==> |s.queue| == 0
    ensures r.Err? ==> r.error == EmptyQueue
    ensures r.Ok? ==> r.value.queue == s.queue[1..]
    ensures r.Ok? ==> !r.value.answerSubmitted && !r.value.answerChecked && r.value.clearAnswerField
    ensures r.Ok? ==> r.value.(queue := s.queue, answerSubmitted := s.answerSubmitted,
      answerChecked := s.answerChecked, clearAnswerField := s.clearAnswerField) == s
  {
    if |s.queue| == 0 then Err(EmptyQueue)
    else Ok(s.(answerSubmitted := false, queue := s.queue[1..], answerChecked := false,
               clearAnswerField := true))
  }

  /** `next_question`: the same pop, clearing `next_question` instead of
      `answer_submitted`. */
  function NextQuestion(s: State): (r: Result<State>)
    ensures r.Err? <==> |s.queue| == 0
    ensures r.Ok? ==> r.value.queue == s.queue[1..]
    ensures r.Ok? ==> !r.value.nextQuestion && !r.value.answerChecked && r.value.clearAnswerField
    ensures r.Ok? ==> r.value.(queue := s.queue, nextQuestion := s.nextQuestion,
      answerChecked := s.answerChecked, clearAnswerField := s.clearAnswerField) == s
  {
    if |s.queue| == 0 then Err(EmptyQueue)
    else Ok(s.(queue := s.queue[1..], nextQuestion := false, answerChecked := false,
               clearAnswerField := true))
  }

  /* A wrong answer in finite mode inserts the question at min(r, len). */
  lemma MissReinserts(s: State, answerField: string, offset: int)
    requires MinOffset <= offset <= MaxOffset
    requires answerField != "" && !s.answerChecked && |s.queue| > 0
    requires s.current.Some? && s.current.value.index == s.queue[0]
    requires s.seen.SeenList? <==> s.config.infinitePractice
    requires !s.config.infinitePractice && !Matches(answerField, s.current.value.answer)
    ensures var p := if offset < |s.queue| then offset else |s.queue|;
      OnCheck(s, answerField, offset).queue == s.queue[..p] + [s.queue[0]] + s.queue[p..]
  {
    var p := if offset < |s.queue| then offset else |s.queue|;
    var s2 := s.(givenAnswer := answerField, answerSubmitted := true);
    var checked := CheckAnswer(s2);
    assert !checked.answerCorrect && checked.queue == s.queue;
    var updated := UpdateQueue(checked, offset);
    assert OnCheck(s, answerField, offset) == updated;
    var q := updated.queue;
    assert q == q[..p] + [q[p]] + q[p + 1..];
  }

  /* Dropping the front of a queue with its front re-inserted at p. */
  lemma DropFrontAfterInsert(q: seq<int>, p: int)
    requires 1 <= p <= |q|
    ensures (q[..p] + [q[0]] + q[p..])[1..] == q[1..p] + [q[0]] + q[p..]
  {
    var front, back := q[..p], [q[0]] + q[p..];
    assert q[..p] + [q[0]] + q[p..] == front + back;
    assert (front + back)[1..] == front[1..] + back;
    assert front[1..] == q[1..p];
  }

  /** A missed question in finite mode comes back after the next advance at
      position min(r, len(queue)) - 1: it is preceded by between two and
      seven other entries, or it is last. */
  lemma MissedQuestionReturns(s: State, answerField: string, offset: int)
    requires MinOffset <= offset <= MaxOffset
    requires answerField != "" && !s.answerChecked && |s.queue| > 0
    requires s.current.Some? && s.current.value.index == s.queue[0]
    requires s.seen.SeenList? <==> s.config.infinitePractice
    requires !s.config.infinitePractice && !Matches(answerField, s.current.value.answer)
    ensures var after := OnCheck(s, answerField, offset);
      var p := if offset < |s.queue| then offset else |s.queue|;
      && OnNext(after).Ok?
      && OnNext(after).value.queue[p - 1] == s.queue[0]
      && OnNext(after).value.queue == s.queue[1..p] + [s.queue[0]] + s.queue[p..]
  {
    var p := if offset < |s.queue| then offset else |s.queue|;
    MissReinserts(s, answerField, offset);
    DropFrontAfterInsert(s.queue, p);
  }

  lemma PresentPreservesWf(s: State, c: Corpus)
    requires c.Valid() && Wf(s, c.Size())
    ensures Within(s.queue, c.Size())
    ensures Present(s, c).Ok? ==> Wf(Present(s, c).value, c.Size())
  {
    forall k | 0 <= k < |s.queue| ensures 0 <= s.queue[k] < c.Size() {
      var j :| 0 <= j < |s.questionIndices| && s.questionIndices[j] == s.queue[k];
    }
  }

  /** Checking keeps the invariant while a question is on screen. */
  lemma OnCheckPreservesWf(s: State, n: nat, answerField: string, offset: int)
    requires Wf(s, n) && |s.queue| > 0 && s.current.Some?
    requires MinOffset <= offset <= MaxOffset
    ensures Wf(OnCheck(s, answerField, offset), n)
    ensures OnCheck(s, answerField, offset).questionIndices == s.questionIndices
    ensures OnCheck(s, answerField, offset).nQuestions == s.nQuestions
    ensures OnCheck(s, answerField, offset).config == s.config
  {
    var r := OnCheck(s, answerField, offset);
    if answerField != "" && !s.answerChecked {
      var s2 := s.(givenAnswer := answerField, answerSubmitted := true);
      var checked := CheckAnswer(s2);
      assert r == UpdateQueue(checked, offset);
      assert Covered(r.queue, r.questionIndices) by {
        forall k | 0 <= k < |r.queue| ensures r.queue[k] in r.questionIndices {
          assert r.queue[k] in multiset(r.queue);
          if r.queue[k] != s.current.value.index {
            assert r.queue[k] in multiset(s.queue);
          }
        }
      }
    }
  }

  lemma OnNextPreservesWf(s: State, n: nat)
    requires Wf(s, n)
    ensures OnNext(s).Ok? ==> Wf(OnNext(s).value, n)
  {
    if |s.queue| > 0 {
      var r := OnNext(s).value;
      forall k | 0 <= k < |r.queue| ensures r.queue[k] in r.questionIndices {
        assert r.queue[k] == s.queue[k + 1];
      }
    }
  }

  /** `next_question` keeps the invariant except in one case: it leaves
      `answer_submitted` set, so popping the last entry of a submitted queue
      leaves a submitted answer with nothing on the queue. */
  lemma NextQuestionPreservesWf(s: State, n: nat)
    requires Wf(s, n)
    ensures NextQuestion(s).Ok? ==>
      (Wf(NextQuestion(s).value, n) <==> !s.answerSubmitted || |s.queue| > 1)
    ensures NextQuestion(s).Ok? ==> Tracking(s) == Tracking(NextQuestion(s).value)
  {
    if |s.queue| > 0 {
      var r := NextQuestion(s).value;
      forall k | 0 <= k < |r.queue| ensures r.queue[k] in r.questionIndices {
        assert r.queue[k] == s.queue[k + 1];
      }
    }
  }

  /** What the user does on one screen: type an answer (possibly empty) and
      press the one button the form shows. */
  datatype Click = Click(answerField: string, offset: int)

  predicate ValidClick(click: Click) {
    MinOffset <= click.offset <= MaxOffset
  }

  /** Re-render: show the front of the queue, or nothing once it is empty
      (the session is over). A rerun that gets past the empty-queue stop
      also consumes a pending clear-answer request. */
  function Render(s: State, c: Corpus): (r: State)
    requires c.Valid() && Wf(s, c.Size())
    ensures Wf(r, c.Size()) && Rendered(r, c)
    ensures |s.queue| == 0 ==> r == s
    ensures |s.queue| > 0 ==> !r.clearAnswerField
    ensures r.(current := s.current, clearAnswerField := s.clearAnswerField) == s
  {
    PresentPreservesWf(s, c);
    if |s.queue| == 0 then s else Present(s, c).value.(clearAnswerField := false)
  }

  /** One interaction: the form shows "Check" until an answer is submitted
      and "Volgende" afterwards; once the queue is empty no form is shown. */
  function Turn(s: State, c: Corpus, click: Click): (r: State)
    requires c.Valid() && Wf(s, c.Size()) && ValidClick(click)
    requires Within(s.queue, c.Size()) && Rendered(s, c)
    ensures Wf(r, c.Size()) && Rendered(r, c)
    ensures r.config == s.config && r.questionIndices == s.questionIndices
    ensures r.nQuestions == s.nQuestions
    ensures r.nCorrect == s.nCorrect || r.nCorrect == s.nCorrect + 1
    ensures |s.queue| > 0 ==> (r.clearAnswerField <==> |r.queue| == 0)
  {
    if |s.queue| == 0 then s
    else if !s.answerSubmitted then
      OnCheckPreservesWf(s, c.Size(), click.answerField, click.offset);
      Render(OnCheck(s, click.answerField, click.offset), c)
    else
      OnNextPreservesWf(s, c.Size());
      Render(OnNext(s).value, c)
  }

  /** A sequence of interactions. */
  function Run(s: State, c: Corpus, clicks: seq<Click>): State
    requires c.Valid() && Wf(s, c.Size()) && Rendered(s, c)
    requires forall k :: 0 <= k < |clicks| ==> ValidClick(clicks[k])
    decreases |clicks|
  {
    if |clicks| == 0 then s
    else
      var next := Turn(s, c, clicks[0]);
      Run(next, c, clicks[1..])
  }

  /** Whatever the user types and whatever offsets are drawn, the invariant
      holds throughout a session: the queue only holds stored indices, every
      seen index is stored, the correct count never exceeds the seen count,
      and the progress denominator and the stored selection never change. */
  lemma {:induction false} RunPreservesInvariant(s: State, c: Corpus, clicks: seq<Click>)
    requires c.Valid() && Wf(s, c.Size()) && Rendered(s, c)
    requires forall k :: 0 <= k < |clicks| ==> ValidClick(clicks[k])
    ensures var r := Run(s, c, clicks);
      && Wf(r, c.Size()) && Rendered(r, c)
      && r.nCorrect <= r.seen.Count()
      && r.config == s.config
      && r.questionIndices == s.questionIndices
      && r.nQuestions == s.nQuestions
      && (Tracking(s) ==> Tracking(r))
    decreases |clicks|
  {
    if |clicks| > 0 {
      var next := Turn(s, c, clicks[0]);
      RunPreservesInvariant(next, c, clicks[1..]);
    }
  }
}

=== FILE: suggestions.dfy ===
/**
 The answer suggestions: the distinct correct answers of the stored
 selection, sorted as Python sorts strings (code point by code point).
 */
module Suggestions {
  import opened Cards
  import opened Seqs

  /** Python's `a < b` on strings. */
  predicate StrLess(a: string, b: string) {
    if |a| == 0 then |b| > 0
    else if |b| == 0 then false
    else if a[0] != b[0] then a[0] < b[0]
    else StrLess(a[1..], b[1..])
  }

  lemma {:induction false} StrLessIrreflexive(a: string)
    ensures !StrLess(a, a)
  {
    if |a| > 0 { StrLessIrreflexive(a[1..]); }
  }

  lemma {:induction false} StrLessTransitive(a: string, b: string, c: string)
    requires StrLess(a, b) && StrLess(b, c)
    ensures StrLess(a, c)
  {
    if |a| > 0 && |b| > 0 && |c| > 0 && a[0] == b[0] && b[0] == c[0] {
      StrLessTransitive(a[1..], b[1..], c[1..]);
    }
  }

  lemma {:induction false} StrLessTotal(a: string, b: string)
    requires a != b
    ensures StrLess(a, b) || StrLess(b, a)
  {
    if |a| > 0 && |b| > 0 && a[0] == b[0] {
      assert a == [a[0]] + a[1..] && b == [b[0]] + b[1..];
      StrLessTotal(a[1..], b[1..]);
    }
  }

  predicate StrictlySorted(s: seq<string>) {
    forall i, j :: 0 <= i < j < |s| ==> StrLess(s[i], s[j])
  }

  /* Place `x` into a strictly sorted list unless it is already there. */
  function InsertSorted(l: seq<string>, x: string): (r: seq<string>)
    requires StrictlySorted(l)
    ensures StrictlySorted(r)
    ensures forall y :: y in r <==> y in l || y == x
  {
    if |l| == 0 then [x]
    else if l[0] == x then l
    else if StrLess(x, l[0]) then
      assert forall j :: 0 <= j < |l| ==> StrLess(x, l[j]) by {
        forall j | 0 <= j < |l| ensures StrLess(x, l[j]) {
          if j > 0 { StrLessTransitive(x, l[0], l[j]); }
        }
      }
      [x] + l
    else
      StrLessTotal(x, l[0]);
      var rest := InsertSorted(l[1..], x);
      assert forall y :: y in rest ==> StrLess(l[0], y) by {
        forall y | y in rest ensures StrLess(l[0], y) {
          if y != x {
            var j :| 1 <= j < |l| && l[j] == y;
          }
        }
      }
      [l[0]] + rest
  }

  /** `sorted(set(xs))`: the distinct strings of `xs` in ascending order. */
  function SortedDistinct(xs: seq<string>): (r: seq<string>)
    ensures StrictlySorted(r)
    ensures forall y :: y in r <==> y in xs
  {
    if |xs| == 0 then [] else InsertSorted(SortedDistinct(xs[..|xs| - 1]), xs[|xs| - 1])
  }

  /** A strictly sorted list repeats nothing. */
  lemma StrictlySortedIsDistinct(s: seq<string>)
    requires StrictlySorted(s)
    ensures Distinct(s)
  {
    forall i, j | 0 <= i < j < |s| ensures s[i] != s[j] {
      StrLessIrreflexive(s[i]);
    }
  }

  /** `define_answer_suggestions`: the correct answers of the stored
      selection, each once, in ascending order. */
  function DefineAnswerSuggestions(c: Corpus, questionIndices: seq<int>): (r: seq<string>)
    requires c.Valid() && Within(questionIndices, c.Size())
    ensures StrictlySorted(r) && Distinct(r)
    ensures forall y :: y in r <==>
      exists k :: 0 <= k < |questionIndices| && c.answers[questionIndices[k]] == y
  {
    var answers := seq(|questionIndices|, k requires 0 <= k < |questionIndices| =>
      c.answers[questionIndices[k]]);
    var r := SortedDistinct(answers);
    StrictlySortedIsDistinct(r);
    assert forall y :: y in answers <==>
      exists k :: 0 <= k < |questionIndices| && c.answers[questionIndices[k]] == y
    by {
      forall y ensures y in answers ==>
        exists k :: 0 <= k < |questionIndices| && c.answers[questionIndices[k]] == y
      {
        if y in answers {
          var k :| 0 <= k < |answers| && answers[k] == y;
        }
      }
      forall k | 0 <= k < |questionIndices| ensures c.answers[questionIndices[k]] in answers {
        assert answers[k] == c.answers[questionIndices[k]];
      }
    }
    r
  }
}
